=== FILE: README.md ===
# IPCSharp core, modelled in Dafny

IPCSharp shares memory between processes through named memory-mapped files.
This project models the parts of it that decide names, offsets and bounds:

- **The per-page allocator** (`IPCSharp/MemoryAllocation.cs`, modules
  `PageLayout` and `MemoryAllocation`). A page is a map from byte offset to
  the `int` stored in the 32-bit word at that offset. It starts with a 16-byte header: magic, lock, allocation
  cursor, and the offset of the first allocation table. It then holds a
  linked chain of 44-byte allocation tables. Each table has a next link and
  `TableSize` = 5 (id, offset) slots. `TryInit` claims the header.
  `TryFindAllocated` walks the chain. `ApplyAlignment` rounds up.
  `TryAllocate` bump-allocates data at the cursor and records it in the first
  empty slot, linking a new table when all slots are used. The well-formedness
  invariant `PageLayout.Wf` says:
  - the chain starts right after the header;
  - every table lies below the cursor;
  - used slots precede empty ones;
  - every used slot records an offset between the first table and the cursor;
  - nothing at or above the cursor has been written.
- **CRC-32** (`IPCSharp/Crc32.cs`, module `Crc32`): the table construction
  with the reflected polynomial 0xEDB88320, the table-driven checksum, and the
  `X8` hexadecimal rendering. The table-driven register is proved equal to
  the bit-at-a-time definition, and the check value of "123456789" is
  proved to be 0xCBF43926.
- **Channel names** (`IPCSharp/Channel.cs`, modules `Channels` and `Utf16`):
  the `ipcs_` prefix, sub-identifiers joined by `_`, and `FromHash`. `FromHash`
  names a channel after the CRC-32 of the seed's UTF-16 little-endian bytes,
  which is what `Encoding.Unicode.GetBytes` returns.
- **The block list** (`IPCSharp/SharedMemory.cs`, module `SharedMemory`).
  It is a list of equally sized blocks named `<channel>_<index>`, with a bump
  cursor into the last block. The module covers `Allocate`, the checks
  `GetPointer` makes before it touches a block, `Dispose`, and `IsValid`.
  A block is kept only as its name. A `SharedMemoryBlock` handle is the
  (block, offset) pair that `Allocate` returns.

The C# integers are modelled as follows:
- Page words are unbounded `int`s. Magic values and ids are only stored and
  compared, so their 32-bit width does not matter to the allocator.
- Page offsets and sizes are `int` too. `MaxPageSize` (2^30) and
  `MaxRequest` (2^29) bound them so that every intermediate sum the allocator
  forms stays inside the int32 range.
- The shared-memory cursor and block size are `Int32s.Int32`. Their
  unchecked additions are written out with `Int32s.Wrap`.
- CRC arithmetic is `bv32`.

An exception is a `Failure` of `Wrappers.Result`. A state-changing method
becomes a function from the old state to the new one.

## Model

| member | source | states |
|---|---|---|
| `Int32s.Wrap` | IPCSharp/SharedMemory.cs:75-81 | an unchecked int32 sum is congruent to the mathematical sum modulo 2^32 and lies in the int32 range |
| `PageLayout.ChainShape` | IPCSharp/MemoryAllocation.cs:86-106 | a walkable chain is empty exactly when the first link is 0; each link leads to the next table; the last table's link is 0; the tables are word-aligned, inside the page and do not overlap |
| `PageLayout.ChainFrame` | IPCSharp/MemoryAllocation.cs:140-156 | the chain depends only on the link words of its tables: a page that agrees on them has the same chain |
| `PageLayout.ChainExtend` | IPCSharp/MemoryAllocation.cs:164-168 | pointing the last link at a fresh zero-linked table past the old tables extends the chain by exactly that table |
| `PageLayout.EntryAt` | IPCSharp/MemoryAllocation.cs:91-93 | slot k of the chain, in walk order, is slot k mod 5 of table k div 5: id at entry 2i and offset at entry 2i+1 |
| `PageLayout.EntryOfTable` | IPCSharp/MemoryAllocation.cs:143-145 | slot i of the t-th table is slot 5t+i of the walk |
| `PageLayout.FirstStop` | IPCSharp/MemoryAllocation.cs:91-104 | the index where the slot scan stops: every earlier slot is used and holds a different id, and the stop slot is empty or holds the id |
| `PageLayout.FirstStopAt` | IPCSharp/MemoryAllocation.cs:91-104 | a slot that stops the scan with no stopping slot before it is the scan's stop |
| `PageLayout.SlotInsideTable` | IPCSharp/MemoryAllocation.cs:19-25 | the id and offset words of every slot lie inside the 44-byte table, after its link word |
| `PageLayout.SlotAddressesDistinct` | IPCSharp/MemoryAllocation.cs:19-25 | in non-overlapping tables no slot word coincides with a link word or with a word of another slot |
| `PageLayout.ApplyBelowKeepsZero` | IPCSharp/MemoryAllocation.cs:164-175 | any sequence of stores below a bound keeps every word at or above the bound zero |
| `PageLayout.Write` | IPCSharp/MemoryAllocation.cs:148-150 | a word store changes the stored word and no other, and keeps the page size |
| `PageLayout.ApplyThree` | IPCSharp/MemoryAllocation.cs:148-150 | applying three stores in sequence is the same as performing the three writes one after another |
| `PageLayout.ApplyFour` | IPCSharp/MemoryAllocation.cs:166-175 | applying four stores in sequence is the same as performing the four writes one after another |
| `PageLayout.EntriesAfterSlotWrite` | IPCSharp/MemoryAllocation.cs:148-149 | writing one slot's id and offset changes exactly that slot of the walk |
| `PageLayout.EntriesAfterLink` | IPCSharp/MemoryAllocation.cs:164-174 | linking a new table whose first slot is filled appends that slot and four empty ones to the walk |
| `MemoryAllocation.TryInit` | IPCSharp/MemoryAllocation.cs:55-73 | a successful init leaves the magic in place, keeps the lock word and the page size |
| `MemoryAllocation.InitFresh` | IPCSharp/MemoryAllocation.cs:66-72 | on a zero header, init writes the magic, sets the chain to offset 16 and the cursor to 60, and nothing else |
| `MemoryAllocation.InitOutcome` | IPCSharp/MemoryAllocation.cs:57-69 | init fails exactly on a foreign nonzero magic, or on a zero magic with a nonzero cursor; a page already carrying the magic is returned unchanged |
| `MemoryAllocation.InitIdempotent` | IPCSharp/MemoryAllocation.cs:57-64 | with a nonzero magic, a second init after a successful one is a no-op |
| `MemoryAllocation.InitZeroMagicRepeatFails` | IPCSharp/MemoryAllocation.cs:57-72 | with magic 0 the header still looks uninitialized but its cursor is set, so a second init fails |
| `MemoryAllocation.InitEstablishesWf` | IPCSharp/MemoryAllocation.cs:66-72 | initializing a zeroed page gives a well-formed page with one table of five empty slots |
| `MemoryAllocation.TryFindAllocated` | IPCSharp/MemoryAllocation.cs:84-108 | the table-by-table, slot-by-slot walk returns exactly the reference lookup `Find` |
| `MemoryAllocation.FindStopsAt` | IPCSharp/MemoryAllocation.cs:91-103 | the lookup returns the offset of the slot that stops the scan, or 0 when that slot is empty or the scan runs off the chain |
| `MemoryAllocation.FindFirstMatch` | IPCSharp/MemoryAllocation.cs:84-108 | on a well-formed page, a nonzero id is found (nonzero result) exactly when some slot holds it, and the result is the offset of the first such slot |
| `MemoryAllocation.ApplyAlignment` | IPCSharp/MemoryAllocation.cs:110-113 | the result is a multiple of the alignment at or above the offset and less than one alignment above it |
| `MemoryAllocation.AlignmentIsLeast` | IPCSharp/MemoryAllocation.cs:110-113 | the result is the least multiple of the alignment at or above the offset |
| `MemoryAllocation.FillSlotWrites` | IPCSharp/MemoryAllocation.cs:148-150 | filling a slot stores the id and the offset in that slot, sets the cursor, and leaves every other word alone |
| `MemoryAllocation.LinkTableWrites` | IPCSharp/MemoryAllocation.cs:164-175 | linking stores the new table's offset in the last link, the entry in its first slot, moves the cursor past it, and leaves every other word alone |
| `MemoryAllocation.TryAllocate` | IPCSharp/MemoryAllocation.cs:129-177 | allocation keeps the page size; it either leaves the page as it was or returns a block at or above the old cursor that ends at or below the new cursor, inside the page |
| `MemoryAllocation.AllocateOutcome` | IPCSharp/MemoryAllocation.cs:131-163 | allocation fails (offset 0, page unchanged) exactly when the data would pass the page end, or when no slot is empty and a new table after the data would; otherwise it returns the aligned cursor |
| `MemoryAllocation.AllocateFills` | IPCSharp/MemoryAllocation.cs:140-152 | with an empty slot, allocation is the slot writes at the first empty slot |
| `MemoryAllocation.AllocateLinks` | IPCSharp/MemoryAllocation.cs:157-176 | with no empty slot, allocation links a new table at the word-aligned end of the data |
| `MemoryAllocation.FilledPage` | IPCSharp/MemoryAllocation.cs:146-151 | filling the first empty slot keeps the chain and changes only that slot of the walk |
| `MemoryAllocation.FilledPageWf` | IPCSharp/MemoryAllocation.cs:146-151 | filling the first empty slot keeps the page well formed |
| `MemoryAllocation.SlotChainFrame` | IPCSharp/MemoryAllocation.cs:148-150 | slot writes never disturb the chain |
| `MemoryAllocation.FilledSlotKeepsTrail` | IPCSharp/MemoryAllocation.cs:146-149 | filling the first empty slot keeps all used slots ahead of all empty ones |
| `MemoryAllocation.LinkedPage` | IPCSharp/MemoryAllocation.cs:164-175 | linking a new table extends the chain by it and the walk by its five slots |
| `MemoryAllocation.LinkedPageWf` | IPCSharp/MemoryAllocation.cs:164-175 | linking a new table keeps the page well formed |
| `MemoryAllocation.LinkedTableRecorded` | IPCSharp/MemoryAllocation.cs:169-175 | the new table's entry records a block below the new cursor |
| `MemoryAllocation.LinkedZero` | IPCSharp/MemoryAllocation.cs:164-175 | after linking, every word past the new table is still zero |
| `MemoryAllocation.LinkChainFrame` | IPCSharp/MemoryAllocation.cs:164-168 | setting the last link to a new table after the cursor extends the chain by that table |
| `MemoryAllocation.LinkedTableKeepsTrail` | IPCSharp/MemoryAllocation.cs:157-174 | when every slot is used, appending a new table whose first slot is filled keeps used slots first |
| `MemoryAllocation.FillCase` | IPCSharp/MemoryAllocation.cs:140-152 | in the filling case the page stays well formed, the chain is kept and only the first empty slot changes |
| `MemoryAllocation.LinkCase` | IPCSharp/MemoryAllocation.cs:157-176 | in the linking case the page stays well formed, the chain gains the new table and the walk gains its five slots |
| `MemoryAllocation.AllocatePreservesWf` | IPCSharp/MemoryAllocation.cs:129-177 | allocation keeps a well-formed page well formed, whether it fails, fills a slot or links a table |
| `MemoryAllocation.RecordKeepsUsed` | IPCSharp/MemoryAllocation.cs:140-174 | recording an entry keeps every other slot and puts the entry at the first empty slot |
| `MemoryAllocation.AllocateKeepsUsedSlots` | IPCSharp/MemoryAllocation.cs:140-174 | a successful allocation changes the slot walk exactly by recording (id, offset) in the first empty slot or in a newly appended table |
| `MemoryAllocation.FindAfterAllocate` | IPCSharp/MemoryAllocation.cs:84-177 | after allocating a nonzero id the page did not hold, the lookup finds it at the returned offset |
| `MemoryAllocation.SuccessiveAllocationsDisjoint` | IPCSharp/MemoryAllocation.cs:129-177 | the first of two successive allocations lies above the header and every table of the page it was taken from, and the second, when it succeeds, starts at or after the end of the first |
| `Crc32.BuildTable` | IPCSharp/Crc32.cs:35-56 | the constructor's nested loops fill all 256 entries with the reference table |
| `Crc32.ReduceByte` | IPCSharp/Crc32.cs:42-53 | the inner loop's eight conditional shift-and-xor steps are eight reflected polynomial reductions |
| `Crc32.TableIndex` | IPCSharp/Crc32.cs:19 | the byte index into the table is below 256 |
| `Crc32.TableEntries` | IPCSharp/Crc32.cs:40-55 | entry i is the byte i reduced eight times by the polynomial |
| `Crc32.StepLinear` | IPCSharp/Crc32.cs:45-52 | one reduction step distributes over xor |
| `Crc32.ShiftsLinear` | IPCSharp/Crc32.cs:43-53 | any number of reduction steps distributes over xor |
| `Crc32.HighBytesOnlyShift` | IPCSharp/Crc32.cs:19-20 | a register whose low byte is zero is shifted eight places by eight reductions |
| `Crc32.EightShiftsSplit` | IPCSharp/Crc32.cs:19-20 | eight reductions of a register are its byte shift xor the reduction of its low byte |
| `Crc32.TableIndexBits` | IPCSharp/Crc32.cs:19 | the table index is the low byte of the register xor the data byte |
| `Crc32.TableStepIsEightShifts` | IPCSharp/Crc32.cs:19-20 | shifting the register a byte and xoring in the table entry at the low-byte index equals eight bit-at-a-time reductions |
| `Crc32.Step` | IPCSharp/Crc32.cs:19-20 | one table-driven byte step equals eight bit-at-a-time reductions of the register with the byte xored into its low end |
| `Crc32.Register` | IPCSharp/Crc32.cs:16-21 | the loop's table-driven register over any data, from any start, equals the independent bit-at-a-time register |
| `Crc32.Checksum` | IPCSharp/Crc32.cs:14-23 | `ComputeChecksum` is the complement of the bit-at-a-time CRC from the all-ones preset |
| `Crc32.ChecksumOfEmpty` | IPCSharp/Crc32.cs:14-23 | the checksum of no bytes is 0 |
| `Crc32.RegisterStreams` | IPCSharp/Crc32.cs:17-21 | the register over a concatenation is the register over the second part started from the first part's register |
| `Crc32.RegisterFoldsLeft` | IPCSharp/Crc32.cs:17-21 | the register is a left fold: the first byte is stepped in first |
| `Crc32.RegisterAppend` | IPCSharp/Crc32.cs:17-21 | appending one byte advances the register by one step |
| `Crc32.CheckValue` | IPCSharp/Crc32.cs:14-23 | the checksum of "123456789" is the CRC-32 check value 0xCBF43926 |
| `Crc32.HexDigitsRoundTrip` | IPCSharp/Crc32.cs:32 | the fixed-width upper-case hexadecimal digits of a value read back as the value |
| `Crc32.Hex8` | IPCSharp/Crc32.cs:32 | `X8` formatting gives eight upper-case hexadecimal digits that read back as the value |
| `Crc32.ChecksumString` | IPCSharp/Crc32.cs:30-33 | the checksum string is eight upper-case hexadecimal digits that read back as the checksum |
| `Crc32.Hex8Injective` | IPCSharp/Crc32.cs:32 | different checksums give different strings |
| `Utf16.EncodeChar` | IPCSharp/Channel.cs:29 | a code point below U+10000 is one non-surrogate code unit, and any other is a high surrogate followed by a low surrogate |
| `Utf16.Encode` | IPCSharp/Channel.cs:29 | a string has between one and two code units per character |
| `Utf16.LittleEndianLayout` | IPCSharp/Channel.cs:29 | code unit k becomes byte 2k (low byte) and byte 2k+1 (high byte) |
| `Utf16.FromLittleEndian` | IPCSharp/Channel.cs:29 | reading bytes in pairs gives half as many code units |
| `Utf16.DecodeChar` | IPCSharp/Channel.cs:29 | decoding a character's code units followed by anything yields that character first |
| `Utf16.DecodeEncode` | IPCSharp/Channel.cs:29 | every string survives the round trip through its code units |
| `Utf16.BytesRoundTrip` | IPCSharp/Channel.cs:29 | every code-unit sequence survives the round trip through its bytes |
| `Utf16.GetBytes` | IPCSharp/Channel.cs:29 | `Encoding.Unicode.GetBytes` gives two bytes per code unit, and reading the pairs back and decoding them returns the string |
| `Utf16.GetBytesInjective` | IPCSharp/Channel.cs:29 | different strings have different UTF-16LE bytes |
| `Channels.GetSubId` | IPCSharp/Channel.cs:22 | a sub-identifier is the channel identifier, one separator `_` and the sub-id, in that order |
| `Channels.GetId` | IPCSharp/Channel.cs:21 | the identifier a channel was built with; it has no contract of its own, and the rows below state what each constructor puts in it |
| `Channels.FromString` | IPCSharp/Channel.cs:13-25 | `FromString(id)` is named `ipcs_` followed by id, and stripping the prefix gives id back |
| `Channels.FromStringInjective` | IPCSharp/Channel.cs:25 | different strings give different channels |
| `Channels.SubIdExtendsId` | IPCSharp/Channel.cs:22 | a sub-identifier strictly extends the channel identifier |
| `Channels.SubIdInjective` | IPCSharp/Channel.cs:22 | different sub-ids of one channel give different identifiers |
| `Channels.GetSubChannel` | IPCSharp/Channel.cs:23 | a sub-channel's identifier extends the parent's by `_` and the sub-id, which can be read back after them |
| `Channels.SubChannelId` | IPCSharp/Channel.cs:21-23 | the identifier of a sub-channel is the sub-identifier of its parent |
| `Channels.NestedSubChannels` | IPCSharp/Channel.cs:23 | nested sub-channels join their sub-ids with `_` in call order |
| `Channels.FromHash` | IPCSharp/Channel.cs:27-30 | a hashed channel is `ipcs_` followed by eight upper-case hex digits that read back as the CRC-32 of the seed's UTF-16LE bytes |
| `Channels.FromHashCollision` | IPCSharp/Channel.cs:27-30 | two seeds give the same channel exactly when the checksums of their bytes agree |
| `SharedMemory.Decimal` | IPCSharp/SharedMemory.cs:59 | a block count is written as one or more decimal digits |
| `SharedMemory.ParseDecimalOfDecimal` | IPCSharp/SharedMemory.cs:59 | a count's decimal digits read back as the count |
| `SharedMemory.DecimalInjective` | IPCSharp/SharedMemory.cs:59 | different counts give different digit strings |
| `SharedMemory.BlockNamesDistinct` | IPCSharp/SharedMemory.cs:59-61 | different blocks of one channel are opened under different names |
| `SharedMemory.IsValid` | IPCSharp/SharedMemory.cs:24 | an object is valid exactly while it is not disposed; it has no contract of its own, and `DisposeKeepsValid` states what it reports after `Dispose` |
| `SharedMemory.InvBlocksDistinct` | IPCSharp/SharedMemory.cs:54-65 | in a reachable state no two blocks are the same file |
| `SharedMemory.NewBlock` | IPCSharp/SharedMemory.cs:54-65 | a new block named after the old count is appended, and nothing else changes |
| `SharedMemory.New` | IPCSharp/SharedMemory.cs:19-31 | a new object holds exactly one block, named `<channel>_0`, with cursor 0, the given size, and is valid; a caller that passes no size gets `DefaultBlockSize` (4096), the source's default argument |
| `SharedMemory.NewEstablishesInv` | IPCSharp/SharedMemory.cs:26-31 | with a non-negative block size, a new object satisfies the reachable-state invariant; with the default size it does too, and its blocks hold 4096 bytes |
| `SharedMemory.AllocateAsWritten` | IPCSharp/SharedMemory.cs:67-84 | the source's allocation throws exactly on a size above the block size; on success it keeps every existing block at its index and appends at most one, the handle is in the last block, and the cursor moves by the size modulo 2^32 |
| `SharedMemory.Allocate` | IPCSharp/SharedMemory.cs:67-84 | the corrected allocation fails exactly on a negative or oversized request; on success the handle is in the last block and the range [offset, offset+size) ends at the new cursor, inside the block |
| `SharedMemory.AllocateAgrees` | IPCSharp/SharedMemory.cs:67-84 | for a non-negative size whose sum with the cursor fits an int32, the source's allocation and the corrected one are the same |
| `SharedMemory.NegativeSizeOverlaps` | IPCSharp/SharedMemory.cs:71-81 | in the source, a negative size moves the cursor back and a later allocation overlaps an earlier one |
| `SharedMemory.SumOverflowEscapesFitTest` | IPCSharp/SharedMemory.cs:75-81 | in the source, an overflowing cursor-plus-size passes the fit test and leaves a negative cursor |
| `SharedMemory.AllocateOutcome` | IPCSharp/SharedMemory.cs:75-82 | for the corrected allocation, a request that fits returns (last block, old cursor), adds no block and advances the cursor by the size; otherwise exactly one block is appended, the handle is (new block, 0) and the cursor is the size |
| `SharedMemory.AllocatePreservesInv` | IPCSharp/SharedMemory.cs:71-81 | the corrected allocation keeps the cursor within the block and every block named after its index, and only appends blocks |
| `SharedMemory.AllocatedInBounds` | IPCSharp/SharedMemory.cs:75-82 | for the corrected allocation, the returned block index exists and the returned range lies inside the block |
| `SharedMemory.SuccessiveAllocationsDisjoint` | IPCSharp/SharedMemory.cs:75-82 | for the corrected allocation, a second allocation lies in a later block or starts at or after the end of the first |
| `SharedMemory.GetPointer` | IPCSharp/SharedMemory.cs:86-106 | a pointer is returned exactly when the object is not disposed, the block index names a block, and the offset is below the block size; it points at that block and offset |
| `SharedMemory.GetPointerErrors` | IPCSharp/SharedMemory.cs:88-103 | the checks go in order: disposed, then block above the count, then offset; a block index equal to the count, or negative, fails only at the list index |
| `SharedMemory.AllocatedRefAccepted` | IPCSharp/SharedMemory.cs:67-104 | for the corrected allocation, a non-empty allocated handle resolves to its block and offset, and still does after any further allocations |
| `SharedMemory.AllocateAll` | IPCSharp/SharedMemory.cs:67-84 | for the corrected allocation, any run of in-range allocations keeps the invariant, the block size and the disposed flag |
| `SharedMemory.AllocateAllKeepsBlocks` | IPCSharp/SharedMemory.cs:54-84 | for the corrected allocation, allocations only ever append blocks, so earlier blocks keep their index |
| `SharedMemory.Dispose` | IPCSharp/SharedMemory.cs:33-52 | disposing changes nothing but the block list, which it empties unless already disposed |
| `SharedMemory.DisposeKeepsValid` | IPCSharp/SharedMemory.cs:24-52 | disposal never sets the disposed flag, so `IsValid` is unchanged, and a second disposal changes nothing |
| `SharedMemory.GetPointerAfterDispose` | IPCSharp/SharedMemory.cs:39-52 | after disposal every pointer request fails |
| `SharedMemory.AllocateAfterDispose` | IPCSharp/SharedMemory.cs:39-82 | for the corrected allocation, after disposal an allocation that fits hands out block index -1 |

## Left out

- Locking: `LockCurrentPage`/`UnlockCurrentPage`, `SpinLockHelper`, and the `lock (this)` sections of `SharedMemory`. Every operation is modelled as running alone, with the caller holding whatever lock the source asks for.
- Memory mapping: `MemoryMappedFile.CreateOrOpen`, the view accessors and `AcquirePointer` are I/O. A block is its name, and a pointer is the (block, offset) pair it would be computed from.
- The page's base pointer, `_basePtr` and `GetAllocationTablePtr`: these are addressing. A page is addressed by byte offset directly.
- `SharedMemoryBlock` is represented by the (block, offset) pair `Allocate` returns. Its `Pointer` and `IsValid` only delegate to `GetPointer` and `IsValid`.
- The channel factory `FromExecutablePath` reflects on the entry assembly, and `Crc32.ComputeChecksumBytes` depends on the host byte order; both are left out. The test projects are not modelled.
- The `disposing == false` branch of `Dispose(bool)` does nothing, and nothing calls it; it is not modelled. `GC.SuppressFinalize` is runtime bookkeeping.
- MemoryAllocation.TryAllocate: requires `0 <= len <= 2^29` and `1 <= alignment <= 2^29`, and the page size is at most 2^30, so no int32 sum overflows. The source does not check these, and a zero alignment divides by zero there. It also requires a cursor inside the page and a chain that can be walked to its end (`Allocatable`). Those pages are the only ones `TryInit` and `TryAllocate` produce (`InitEstablishesWf`, `AllocatePreservesWf`).
- MemoryAllocation.ApplyAlignment: requires a non-negative offset and a sum that fits an int32. C#'s truncating division agrees with Dafny's for the non-negative operands this allows.
- MemoryAllocation.TryFindAllocated, like `Find` and `FindFirstMatch`, requires a chain that can be walked to its end. The chain's tables must be aligned, inside the page, past the header and strictly increasing. On a cyclic link the source loops forever. On an out-of-range link it reads outside the page. It also walks overlapping or unaligned tables. The model does not cover these pages. `TryInit` and `TryAllocate` never produce them, as `InitEstablishesWf` and `AllocatePreservesWf` show; only a foreign writer corrupting the page could.
- MemoryAllocation.TryFindAllocated: the length parameter is accepted and not compared, as in the source. The size check its documentation mentions is not implemented there.
- MemoryAllocation.TryAllocate does not check for an id already present, as in the source. `FindAfterAllocate` therefore assumes the id was absent.
- PageLayout.Wf assumes nothing at or above the cursor has been written. The allocator keeps this itself, but a user writing past its block would break it.
- MemoryAllocation.InitZeroMagicRepeatFails: a magic of 0 makes `TryInit` non-idempotent, as in the source; this is stated, not corrected.
- Utf16: a Dafny `char` is a Unicode scalar value, so a .NET string with an unpaired surrogate, which `GetBytes` would replace with U+FFFD, has no counterpart here.
- SharedMemory.AllocateOutcome: it is stated for the corrected `Allocate`. `AllocateAgrees` carries it to the source's allocation for every non-negative size whose sum with the cursor fits an int32. Outside that range the source breaks it (see Findings).
- SharedMemory.AllocatePreservesInv: it is stated for the corrected `Allocate`. `AllocateAgrees` carries it to the source's allocation for every non-negative size whose sum with the cursor fits an int32. Outside that range the source breaks it (see Findings).
- SharedMemory.AllocatedInBounds: it is stated for the corrected `Allocate`. `AllocateAgrees` carries it to the source's allocation for every non-negative size whose sum with the cursor fits an int32. Outside that range the source breaks it (see Findings).
- SharedMemory.SuccessiveAllocationsDisjoint: it is stated for the corrected `Allocate`. `AllocateAgrees` carries it to the source's allocation for every non-negative size whose sum with the cursor fits an int32. Outside that range the source breaks it (see Findings).
- SharedMemory.AllocatedRefAccepted: it is stated for the corrected `Allocate`. `AllocateAgrees` carries it to the source's allocation for every non-negative size whose sum with the cursor fits an int32. Outside that range the source breaks it (see Findings).
- SharedMemory.AllocateAll: it is stated for the corrected `Allocate`. `AllocateAgrees` carries it to the source's allocation for every non-negative size whose sum with the cursor fits an int32. Outside that range the source breaks it (see Findings).
- SharedMemory.AllocateAllKeepsBlocks: it is stated for runs of the corrected `Allocate`. The source also keeps every block at its index for every size, since it only ever appends; `AllocateAsWritten` states this for one call.
- SharedMemory.AllocateAfterDispose: it is stated for the corrected `Allocate`. Its requires, a non-negative size that fits behind the cursor, lie inside the range of `AllocateAgrees`, so the source also hands out block -1 for every such request.
- SharedMemory.GetPointer accepts a negative offset, as the source does. Handles from the corrected `Allocate` never carry one.
- A failed operation returns no new state. The caller keeps the state it had, which is how the source leaves its fields when it throws, including in `Allocate` with an oversized request.

## Findings

| source | as written | input that shows it | evidently intended | confidence | as-written member | corrected member |
|---|---|---|---|---|---|---|
| IPCSharp/SharedMemory.cs:71-81 | only `size > _blockSize` is rejected, so a negative size passes and `_allocatePos += size` moves the cursor back | block size 4096: `Allocate(10)` gives offset 0, `Allocate(-5)` leaves the cursor at 5, `Allocate(1)` gives offset 5, inside the first block | a negative size is rejected like an oversized one | not executed; medium | `SharedMemory.NegativeSizeOverlaps` | `SharedMemory.Allocate` |
| IPCSharp/SharedMemory.cs:75-81 | `_allocatePos + size > _blockSize` is an unchecked int32 sum | block size `int.MaxValue`, cursor 2^30, `Allocate(2^30)`: the sum wraps negative, the request passes as fitting, and the cursor becomes negative | compare `size > _blockSize - _allocatePos`, which cannot overflow | not executed; low (needs a block size near 2 GiB) | `SharedMemory.SumOverflowEscapesFitTest` | `SharedMemory.Allocate` |

=== FILE: channel.dfy ===
/**
 Channel naming (IPCSharp/Channel.cs): a channel is an identifier string from
 which the names of the shared-memory regions are derived. Every public
 channel starts with the common prefix "ipcs_"; sub-channels append
 "_" and a sub-identifier; a hashed channel names itself after the CRC-32 of
 the UTF-16LE bytes of an arbitrary seed string.
 */
module Channels {
  import Crc32
  import Utf16

  /** The common prefix of every channel built by `FromString`. */
  const CommonPrefix: string := "ipcs_"

  /** The separator between an identifier and a sub-identifier. */
  const Separator: char := '_'

  datatype Channel = Channel(id: string)

  /** `GetId()`: the channel's identifier. */
  function GetId(c: Channel): string {
    c.id
  }

  /** `GetId(subId)`: the identifier of a resource named `subId` inside the
      channel. */
  function GetSubId(c: Channel, subId: string): (r: string)
    ensures |r| == |GetId(c)| + 1 + |subId|
    ensures r[..|GetId(c)|] == GetId(c)
    ensures r[|GetId(c)|] == Separator
    ensures r[|GetId(c)| + 1..] == subId
  {
    c.id + [Separator] + subId
  }

  /** `GetSubChannel(subId)`: the channel whose identifier is `GetId(subId)`.
      Its identifier extends the parent's by the separator and `subId`, which
      can be read back behind them. */
  function GetSubChannel(c: Channel, subId: string): (r: Channel)
    ensures |GetId(r)| == |GetId(c)| + 1 + |subId|
    ensures GetId(r)[..|GetId(c)|] == GetId(c) && GetId(r)[|GetId(c)|] == Separator
    ensures GetId(r)[|GetId(c)| + 1..] == subId
  {
    Channel(GetSubId(c, subId))
  }

  /** `FromString(id)`: the channel "ipcs_" + id. Its identifier carries the
      common prefix, and stripping the prefix gives `id` back. */
  function FromString(id: string): (r: Channel)
    ensures |GetId(r)| == |CommonPrefix| + |id|
    ensures GetId(r)[..|CommonPrefix|] == CommonPrefix
    ensures GetId(r)[|CommonPrefix|..] == id
  {
    Channel(CommonPrefix + id)
  }

  /** The bytes a seed is hashed over: its UTF-16LE encoding
      (`Encoding.Unicode.GetBytes`). */
  function SeedBytes(name: string): seq<bv8> {
    Utf16.AsBits(Utf16.GetBytes(name))
  }

  /** `FromHash(name)`: the channel named after the checksum of the UTF-16LE
      bytes of `name`, written as eight upper-case hexadecimal digits. Its
      identifier is 13 characters long: the common prefix followed by eight
      digits that read back to the CRC-32 of the seed's bytes. */
  function FromHash(name: string): (r: Channel)
    ensures |GetId(r)| == 13
    ensures GetId(r)[..5] == CommonPrefix
    ensures forall i :: 5 <= i < 13 ==> Crc32.IsUpperHexDigit(GetId(r)[i])
    ensures Crc32.ParseHex(GetId(r)[5..]) == Crc32.Checksum(SeedBytes(name)) as nat
  {
    var digits := Crc32.ChecksumString(SeedBytes(name));
    HexDigitsBehindPrefix(digits);
    FromString(digits)
  }

  /** Eight hexadecimal digits behind the common prefix sit at indices 5
      to 12 of the identifier. */
  lemma HexDigitsBehindPrefix(digits: string)
    requires |digits| == 8 && forall i :: 0 <= i < 8 ==> Crc32.IsUpperHexDigit(digits[i])
    ensures |GetId(FromString(digits))| == 13
    ensures GetId(FromString(digits))[..5] == CommonPrefix
    ensures GetId(FromString(digits))[5..] == digits
    ensures forall i :: 5 <= i < 13 ==> Crc32.IsUpperHexDigit(GetId(FromString(digits))[i])
  {
    var id := GetId(FromString(digits));
    assert forall i :: 5 <= i < 13 ==> id[i] == digits[i - 5];
  }

  // ---------------------------------------------------------------------
  // Properties
  // ---------------------------------------------------------------------

  /** Different identifiers give different channels. */
  lemma FromStringInjective(a: string, b: string)
    requires FromString(a) == FromString(b)
    ensures a == b
  {
    assert a == GetId(FromString(a))[|CommonPrefix|..];
  }

  /** A channel's own identifier is a proper prefix of each of its
      sub-identifiers, and the sub-identifier can be read back after it. */
  lemma SubIdExtendsId(c: Channel, subId: string)
    ensures |GetId(c)| < |GetSubId(c, subId)|
    ensures GetSubId(c, subId)[..|GetId(c)|] == GetId(c)
  {
  }

  /** Within one channel, different sub-identifiers give different
      resource identifiers. */
  lemma SubIdInjective(c: Channel, a: string, b: string)
    requires GetSubId(c, a) == GetSubId(c, b)
    ensures a == b
  {
    assert a == GetSubId(c, a)[|GetId(c)| + 1..];
  }

  /** The sub-channel's identifier is the parent's sub-identifier. */
  lemma SubChannelId(c: Channel, subId: string)
    ensures GetId(GetSubChannel(c, subId)) == GetSubId(c, subId)
  {
  }

  /** Nested sub-channels concatenate their sub-identifiers in call order. */
  lemma NestedSubChannels(c: Channel, a: string, b: string)
    ensures GetId(GetSubChannel(GetSubChannel(c, a), b)) == GetId(c) + "_" + a + "_" + b
  {
  }

  /** Two seeds hash to the same channel exactly when the checksums of their
      UTF-16LE bytes agree. */
  lemma FromHashCollision(a: string, b: string)
    ensures FromHash(a) == FromHash(b) <==>
            Crc32.Checksum(SeedBytes(a)) == Crc32.Checksum(SeedBytes(b))
  {
    var da := Crc32.ChecksumString(SeedBytes(a));
    var db := Crc32.ChecksumString(SeedBytes(b));
    if FromHash(a) == FromHash(b) {
      FromStringInjective(da, db);
      Crc32.Hex8Injective(Crc32.Checksum(SeedBytes(a)), Crc32.Checksum(SeedBytes(b)));
    }
  }
}

=== FILE: crc32.dfy ===
/**
 Table-driven CRC-32 (IPCSharp/Crc32.cs): the reflected polynomial 0xEDB88320,
 register preset to 0xFFFFFFFF and complemented at the end. This is the CRC
 of the frame check sequence in clause 3.2.9 of IEEE 802.3, computed with the
 256-entry lookup table of the sample code in section 8 of RFC 1952.

 Bytes are `bv8` and the register is `bv32`, so the source's `uint` and
 `byte` arithmetic is exact here.
 */
module Crc32 {

  /** The reflected CRC-32 generator polynomial. */
  const Polynomial: bv32 := 0xEDB8_8320

  /** The register value before the first byte. */
  const InitialRegister: bv32 := 0xFFFF_FFFF

  /** Number of entries in the lookup table. */
  const TableLength := 256

  /** One bit of polynomial division: shift right, and XOR the polynomial in
      when the bit shifted out was 1. */
  function ShiftStep(c: bv32): bv32 {
    if c & 1 == 1 then (c >> 1) ^ Polynomial else c >> 1
  }

  /** `n` bitwise reduction steps applied to `c`. */
  function Shifts(c: bv32, n: nat): bv32
    decreases n
  {
    if n == 0 then c else Shifts(ShiftStep(c), n - 1)
  }

  /** The lookup table: entry `i` is `i` after eight reduction steps. */
  function Table(): (t: seq<bv32>)
    ensures |t| == TableLength
  {
    seq(TableLength, i requires 0 <= i < TableLength => Shifts(i as bv32, 8))
  }

  /** The table-building loops of the constructor: for each of the 256
      indices, eight rounds of "shift right, XOR the polynomial when the low
      bit was set". */
  method BuildTable() returns (table: seq<bv32>)
    ensures |table| == TableLength
    ensures forall i :: 0 <= i < TableLength ==> table[i] == Table()[i]
  {
    table := [];
    var i := 0;
    while i < TableLength
      invariant 0 <= i <= TableLength
      invariant table == Table()[..i]
    {
      var temp := ReduceByte(i as bv32);
      assert temp == Table()[i];
      assert Table()[..i + 1] == Table()[..i] + [Table()[i]];
      table := table + [temp];
      i := i + 1;
    }
  }

  /** The inner loop of the constructor: eight reduction rounds. */
  method ReduceByte(x: bv32) returns (temp: bv32)
    ensures temp == Shifts(x, 8)
  {
    temp := x;
    var j := 8;
    while j > 0
      invariant 0 <= j <= 8
      invariant Shifts(temp, j) == Shifts(x, 8)
    {
      if temp & 1 == 1 {
        temp := (temp >> 1) ^ Polynomial;
      } else {
        temp := temp >> 1;
      }
      j := j - 1;
    }
  }

  /** The table index of one byte step: the low byte of the register XORed
      with the input byte (the source's `(byte)` cast). */
  function TableIndex(crc: bv32, b: bv8): (r: nat)
    ensures r < TableLength
  {
    ((crc & 0xFF) ^ (b as bv32)) as int
  }

  /** The table-driven step for one input byte: it does what eight bitwise
      reduction rounds do to the register with the byte XORed into its low
      end. */
  function Step(crc: bv32, b: bv8): (r: bv32)
    ensures r == Shifts(crc ^ (b as bv32), 8)
  {
    TableStepIsEightShifts(crc, b);
    (crc >> 8) ^ Table()[TableIndex(crc, b)]
  }

  /** The register after feeding `data` to the table-driven step, starting
      from `init` (the loop of `ComputeChecksum`, byte by byte). On every
      input and every starting register it agrees with the bit-at-a-time
      reference. */
  function Register(init: bv32, data: seq<bv8>): (r: bv32)
    ensures r == BitwiseRegister(init, data)
    decreases |data|
  {
    if |data| == 0 then init
    else Step(Register(init, data[..|data| - 1]), data[|data| - 1])
  }

  /** `ComputeChecksum`: the final register, complemented, which is the
      complement of the bit-at-a-time CRC from the all-ones preset. */
  function Checksum(data: seq<bv8>): (r: bv32)
    ensures r == !BitwiseRegister(InitialRegister, data)
  {
    !Register(InitialRegister, data)
  }

  /** Reference definition: the bit-at-a-time CRC, where each byte is XORed
      into the register and then reduced eight times. */
  function BitwiseRegister(init: bv32, data: seq<bv8>): bv32
    decreases |data|
  {
    if |data| == 0 then init
    else Shifts(BitwiseRegister(init, data[..|data| - 1]) ^ (data[|data| - 1] as bv32), 8)
  }

  // ---------------------------------------------------------------------
  // Linearity of the reduction over XOR
  //
  // Each bit-vector fact below is kept to one small step: the solver handles
  // 32-bit identities quickly only when few of them are in scope at once.
  // ---------------------------------------------------------------------

  /** XOR, named so that the linearity lemmas can talk about it as a unit. */
  function Xor(a: bv32, b: bv32): bv32 {
    a ^ b
  }

  /** The polynomial feedback of one reduction step. */
  function Feedback(c: bv32): bv32 {
    if c & 1 == 1 then Polynomial else 0
  }

  function LowByte(x: bv32): bv32 {
    x & 0xFF
  }

  function HighBytes(x: bv32): bv32 {
    x & 0xFFFF_FF00
  }

  lemma ShiftXor(a: bv32, b: bv32)
    ensures (a ^ b) >> 1 == (a >> 1) ^ (b >> 1)
  {
  }

  lemma LowBitXor(a: bv32, b: bv32)
    ensures (a ^ b) & 1 == (a & 1) ^ (b & 1)
  {
  }

  lemma LowBitCases(a: bv32)
    ensures a & 1 == 0 || a & 1 == 1
  {
  }

  lemma XorZero(a: bv32)
    ensures a ^ 0 == a
  {
  }

  lemma XorRearrange(p: bv32, q: bv32, r: bv32, s: bv32)
    ensures (p ^ q) ^ (r ^ s) == (p ^ r) ^ (q ^ s)
  {
  }

  /** A reduction step is a shift plus the feedback of the bit shifted out. */
  lemma StepAsFeedback(c: bv32)
    ensures ShiftStep(c) == (c >> 1) ^ Feedback(c)
  {
    if c & 1 != 1 {
      XorZero(c >> 1);
    }
  }

  lemma FeedbackLinear(a: bv32, b: bv32)
    ensures Feedback(a ^ b) == Feedback(a) ^ Feedback(b)
  {
    LowBitXor(a, b);
    LowBitCases(a);
    LowBitCases(b);
  }

  /** One reduction step distributes over XOR. */
  lemma StepLinear(a: bv32, b: bv32)
    ensures ShiftStep(Xor(a, b)) == Xor(ShiftStep(a), ShiftStep(b))
  {
    StepAsFeedback(a ^ b);
    StepAsFeedback(a);
    StepAsFeedback(b);
    ShiftXor(a, b);
    FeedbackLinear(a, b);
    XorRearrange(a >> 1, b >> 1, Feedback(a), Feedback(b));
  }

  /** Any number of reduction steps distribute over XOR. */
  lemma {:induction false} ShiftsLinear(a: bv32, b: bv32, n: nat)
    ensures Shifts(Xor(a, b), n) == Xor(Shifts(a, n), Shifts(b, n))
    decreases n
  {
    if n > 0 {
      ShiftsLinear(ShiftStep(a), ShiftStep(b), n - 1);
      StepLinear(a, b);
    }
  }

  /** A register whose low byte is zero only shifts during eight steps: no 1
      bit is ever shifted out. */
  lemma HighBytesOnlyShift(y: bv32)
    requires y & 0xFF == 0
    ensures Shifts(y, 8) == y >> 8
  {
    assert ShiftStep(y) == y >> 1;
    assert ShiftStep(y >> 1) == y >> 2;
    assert ShiftStep(y >> 2) == y >> 3;
    assert ShiftStep(y >> 3) == y >> 4;
    assert ShiftStep(y >> 4) == y >> 5;
    assert ShiftStep(y >> 5) == y >> 6;
    assert ShiftStep(y >> 6) == y >> 7;
    assert ShiftStep(y >> 7) == y >> 8;
    assert Shifts(y >> 7, 1) == y >> 8;
    assert Shifts(y >> 6, 2) == y >> 8;
    assert Shifts(y >> 5, 3) == y >> 8;
    assert Shifts(y >> 4, 4) == y >> 8;
    assert Shifts(y >> 3, 5) == y >> 8;
    assert Shifts(y >> 2, 6) == y >> 8;
    assert Shifts(y >> 1, 7) == y >> 8;
  }

  lemma ByteSplit(x: bv32)
    ensures Xor(LowByte(x), HighBytes(x)) == x
    ensures HighBytes(x) & 0xFF == 0
    ensures HighBytes(x) >> 8 == x >> 8
  {
  }

  lemma EightShiftsOfParts(x: bv32)
    ensures Shifts(x, 8) == Xor(Shifts(LowByte(x), 8), Shifts(HighBytes(x), 8))
  {
    ByteSplit(x);
    ShiftsLinear(LowByte(x), HighBytes(x), 8);
  }

  lemma EightShiftsOfHighBytes(x: bv32)
    ensures Shifts(HighBytes(x), 8) == x >> 8
  {
    ByteSplit(x);
    HighBytesOnlyShift(HighBytes(x));
  }

  lemma XorOfShifted(x: bv32, low: bv32, high: bv32, whole: bv32)
    requires whole == Xor(low, high) && high == x >> 8
    ensures whole == (x >> 8) ^ low
  {
  }

  /** Eight reduction steps split into the shifted-out high bytes and the
      table entry of the low byte. */
  lemma EightShiftsSplit(x: bv32)
    ensures Shifts(x, 8) == (x >> 8) ^ Shifts(LowByte(x), 8)
  {
    EightShiftsOfParts(x);
    EightShiftsOfHighBytes(x);
    XorOfShifted(x, Shifts(LowByte(x), 8), Shifts(HighBytes(x), 8), Shifts(x, 8));
  }

  // ---------------------------------------------------------------------
  // Properties of the checksum
  // ---------------------------------------------------------------------

  /** Every table entry is its index reduced eight times. */
  lemma TableEntries(i: nat)
    requires i < TableLength
    ensures Table()[i] == Shifts(i as bv32, 8)
  {
  }

  lemma BitsIntRoundTrip(a: bv32)
    ensures (a as int) as bv32 == a
  {
  }

  lemma LowByteOfXor(crc: bv32, b: bv8)
    ensures (crc & 0xFF) ^ (b as bv32) == LowByte(crc ^ (b as bv32))
    ensures (crc & 0xFF) ^ (b as bv32) < 256
  {
  }

  lemma ByteLeavesHighBits(crc: bv32, b: bv8)
    ensures (crc ^ (b as bv32)) >> 8 == crc >> 8
  {
  }

  /** The table index is the low byte of the register XORed with the byte. */
  lemma TableIndexBits(crc: bv32, b: bv8)
    ensures TableIndex(crc, b) as bv32 == LowByte(crc ^ (b as bv32))
  {
    LowByteOfXor(crc, b);
    BitsIntRoundTrip((crc & 0xFF) ^ (b as bv32));
  }

  /** The table-driven byte step equals eight bitwise reduction steps applied
      to the register with the byte XORed into its low end. */
  lemma TableStepIsEightShifts(crc: bv32, b: bv8)
    ensures (crc >> 8) ^ Table()[TableIndex(crc, b)] == Shifts(crc ^ (b as bv32), 8)
  {
    var x := crc ^ (b as bv32);
    TableIndexBits(crc, b);
    TableEntries(TableIndex(crc, b));
    EightShiftsSplit(x);
    ByteLeavesHighBits(crc, b);
  }

  /** The checksum of no bytes is 0: the preset register is complemented
      straight back. */
  lemma ChecksumOfEmpty()
    ensures Checksum([]) == 0
  {
  }

  /** Streaming: processing `a + b` is processing `b` from the register that
      `a` left behind. */
  lemma {:induction false} RegisterStreams(init: bv32, a: seq<bv8>, b: seq<bv8>)
    ensures Register(init, a + b) == Register(Register(init, a), b)
    decreases |b|
  {
    if |b| == 0 {
      assert a + b == a;
    } else {
      var b' := b[..|b| - 1];
      assert (a + b)[..|a + b| - 1] == a + b';
      assert (a + b)[|a + b| - 1] == b[|b| - 1];
      RegisterStreams(init, a, b');
    }
  }

  /** The register is a left fold: the first byte is stepped in first. */
  lemma RegisterFoldsLeft(init: bv32, b: bv8, rest: seq<bv8>)
    ensures Register(init, [b] + rest) == Register(Step(init, b), rest)
  {
    RegisterStreams(init, [b], rest);
    assert [b][..0] == [];
  }

  /** Appending one byte performs one table-driven step. */
  lemma RegisterAppend(init: bv32, data: seq<bv8>, b: bv8)
    ensures Register(init, data + [b]) == Step(Register(init, data), b)
  {
    assert (data + [b])[..|data|] == data;
  }

  /** The ASCII digits "123456789". */
  const CheckInput: seq<bv8> := [0x31, 0x32, 0x33, 0x34, 0x35, 0x36, 0x37, 0x38, 0x39]

  /** Extends a prefix of the check input by one byte whose step is
      evaluated bit by bit: `x` is the register with the byte
      folded in, and eight reduction rounds take it to `after`. */
  lemma AppendCheckByte(prefix: seq<bv8>, before: bv32, b: bv8, x: bv32, after: bv32)
    returns (extended: seq<bv8>)
    requires BitwiseRegister(InitialRegister, prefix) == before
    requires x == before ^ (b as bv32) && Shifts(x, 8) == after
    ensures extended == prefix + [b] && BitwiseRegister(InitialRegister, extended) == after
  {
    extended := prefix + [b];
    assert extended[..|prefix|] == prefix;
  }

  /** The digits "123" take the preset register to 0x77B79C2D. */
  lemma CheckDigits123() returns (p: seq<bv8>)
    ensures p == [] + [0x31] + [0x32] + [0x33] && BitwiseRegister(InitialRegister, p) == 0x77B7_9C2D
  {
    var p0: seq<bv8> := [];
    var p1 := AppendCheckByte(p0, 0xFFFF_FFFF, 0x31, 0xFFFF_FFCE, 0x7C23_1048);
    var p2 := AppendCheckByte(p1, 0x7C23_1048, 0x32, 0x7C23_107A, 0xB0AC_BB32);
    p := AppendCheckByte(p2, 0xB0AC_BB32, 0x33, 0xB0AC_BB01, 0x77B7_9C2D);
  }

  /** The digits "456" then take the register to 0xF68D2C9E. */
  lemma CheckDigits456(prefix: seq<bv8>) returns (p: seq<bv8>)
    requires BitwiseRegister(InitialRegister, prefix) == 0x77B7_9C2D
    ensures p == prefix + [0x34] + [0x35] + [0x36] && BitwiseRegister(InitialRegister, p) == 0xF68D_2C9E
  {
    var p4 := AppendCheckByte(prefix, 0x77B7_9C2D, 0x34, 0x77B7_9C19, 0x641C_1F5C);
    var p5 := AppendCheckByte(p4, 0x641C_1F5C, 0x35, 0x641C_1F69, 0x340A_C5E3);
    p := AppendCheckByte(p5, 0x340A_C5E3, 0x36, 0x340A_C5D5, 0xF68D_2C9E);
  }

  /** The digits "789" then take the register to 0x340BC6D9. */
  lemma CheckDigits789(prefix: seq<bv8>) returns (p: seq<bv8>)
    requires BitwiseRegister(InitialRegister, prefix) == 0xF68D_2C9E
    ensures p == prefix + [0x37] + [0x38] + [0x39] && BitwiseRegister(InitialRegister, p) == 0x340B_C6D9
  {
    var p7 := AppendCheckByte(prefix, 0xF68D_2C9E, 0x37, 0xF68D_2CA9, 0xAFFC_9660);
    var p8 := AppendCheckByte(p7, 0xAFFC_9660, 0x38, 0xAFFC_9658, 0x651F_2550);
    p := AppendCheckByte(p8, 0x651F_2550, 0x39, 0x651F_2569, 0x340B_C6D9);
  }

  /** The three stages spell out the check input. */
  lemma CheckInputSpelled(p3: seq<bv8>, p6: seq<bv8>, p9: seq<bv8>)
    requires p3 == [] + [0x31] + [0x32] + [0x33]
    requires p6 == p3 + [0x34] + [0x35] + [0x36]
    requires p9 == p6 + [0x37] + [0x38] + [0x39]
    ensures p9 == CheckInput
  {
    assert p3 == [0x31, 0x32, 0x33];
    assert p6 == [0x31, 0x32, 0x33, 0x34, 0x35, 0x36];
  }

  /** The standard CRC-32 check value: the checksum of the ASCII digits
      "123456789" is 0xCBF43926. */
  lemma CheckValue()
    ensures Checksum(CheckInput) == 0xCBF4_3926
  {
    var p3 := CheckDigits123();
    var p6 := CheckDigits456(p3);
    var p9 := CheckDigits789(p6);
    CheckInputSpelled(p3, p6, p9);
  }

  // ---------------------------------------------------------------------
  // Hexadecimal formatting ("{0:X8}")
  // ---------------------------------------------------------------------

  const HexAlphabet: string := "0123456789ABCDEF"

  predicate IsUpperHexDigit(c: char) {
    ('0' <= c <= '9') || ('A' <= c <= 'F')
  }

  /** The value of one upper-case hexadecimal digit. */
  function HexValue(c: char): (v: nat)
    requires IsUpperHexDigit(c)
    ensures v < 16
  {
    if c <= '9' then (c - '0') as nat else (c - 'A') as nat + 10
  }

  /** Reads a string of upper-case hexadecimal digits, most significant
      first. */
  function ParseHex(s: string): nat
    requires forall i :: 0 <= i < |s| ==> IsUpperHexDigit(s[i])
    decreases |s|
  {
    if |s| == 0 then 0 else ParseHex(s[..|s| - 1]) * 16 + HexValue(s[|s| - 1])
  }

  function Pow16(k: nat): (r: nat)
    ensures r > 0
  {
    if k == 0 then 1 else 16 * Pow16(k - 1)
  }

  /** The `k` low hexadecimal digits of `n`, most significant first, padded
      with zeros. */
  function HexDigits(n: nat, k: nat): (s: string)
    ensures |s| == k
    ensures forall i :: 0 <= i < |s| ==> IsUpperHexDigit(s[i])
  {
    if k == 0 then []
    else HexDigits(n / 16, k - 1) + [HexAlphabet[n % 16]]
  }

  lemma HexAlphabetValue(d: nat)
    requires d < 16
    ensures IsUpperHexDigit(HexAlphabet[d]) && HexValue(HexAlphabet[d]) == d
  {
  }

  /** Digits of a value that fits read back to that value. */
  lemma {:induction false} HexDigitsRoundTrip(n: nat, k: nat)
    requires n < Pow16(k)
    ensures ParseHex(HexDigits(n, k)) == n
  {
    if k > 0 {
      var s := HexDigits(n, k);
      assert s[..|s| - 1] == HexDigits(n / 16, k - 1);
      HexAlphabetValue(n % 16);
      HexDigitsRoundTrip(n / 16, k - 1);
    }
  }

  /** `{0:X8}` of a 32-bit value. */
  function Hex8(v: bv32): (s: string)
    ensures |s| == 8
    ensures forall i :: 0 <= i < |s| ==> IsUpperHexDigit(s[i])
    ensures ParseHex(s) == v as nat
  {
    assert (v as nat) < Pow16(8);
    HexDigitsRoundTrip(v as nat, 8);
    HexDigits(v as nat, 8)
  }

  /** `ComputeChecksumString`: exactly eight upper-case hexadecimal digits
      that read back to the checksum. */
  function ChecksumString(data: seq<bv8>): (s: string)
    ensures |s| == 8
    ensures forall i :: 0 <= i < |s| ==> IsUpperHexDigit(s[i])
    ensures ParseHex(s) == Checksum(data) as nat
  {
    Hex8(Checksum(data))
  }

  /** Distinct checksums format to distinct strings. */
  lemma Hex8Injective(a: bv32, b: bv32)
    requires Hex8(a) == Hex8(b)
    ensures a == b
  {
    assert a as nat == b as nat;
    BitsIntRoundTrip(a);
    BitsIntRoundTrip(b);
  }
}

=== FILE: int32.dfy ===
/** C#'s 32-bit `int`: its range and the wrap-around of its addition. */
module Int32s {

  const Int32Min := -0x8000_0000
  const Int32Max := 0x7FFF_FFFF

  type Int32 = x: int | Int32Min <= x <= Int32Max

  /** The int32 value with the same low 32 bits as `x`: what an unchecked
      C# `int` addition yields. */
  function Wrap(x: int): (r: Int32)
    ensures (r - x) % 0x1_0000_0000 == 0
  {
    (x - Int32Min) % 0x1_0000_0000 + Int32Min
  }

  /** A sum that fits is not changed by wrapping. */
  lemma WrapInRange(x: int)
    requires Int32Min <= x <= Int32Max
    ensures Wrap(x) == x
  {
  }
}

=== FILE: memory_allocation.dfy ===
/**
  * The per-page allocator: initializing a page header, looking a block up by
  * id, and bump-allocating a block while recording it in the table chain.
  *
  * Every operation takes the page and returns the page it leaves behind, so
  * "the page is unchanged" is an equation between pages. The cross-process
  * lock the caller holds around these calls is not modelled.
  */
module MemoryAllocation {
  import opened Wrappers
  import opened PageLayout
  import opened Int32s

  // ---------------------------------------------------------------------
  // TryInit
  // ---------------------------------------------------------------------

  datatype InitError = InvalidSharedMemory

  /** Claims a zero header for `magic`, accepts a header that already carries
      `magic`, and rejects anything else without writing. */
  function TryInit(p: Page, magic: int): (r: Result<Page, InitError>)
    ensures r.Success? ==> r.value.size == p.size
    ensures r.Success? ==> Read(r.value, MagicAt) == magic
    ensures r.Success? ==> Read(r.value, LockAt) == Read(p, LockAt)
  {
    if Read(p, MagicAt) != 0 then
      if Read(p, MagicAt) != magic then Failure(InvalidSharedMemory) else Success(p)
    else if Cursor(p) != 0 then Failure(InvalidSharedMemory)
    else
      var q := Write(p, MagicAt, magic);
      var q := Write(q, AllocationTableOffsetAt, HeaderSize);
      Success(Write(q, AllocationSizeAt, HeaderSize + TableStructSize))
  }

  /** On a header whose magic and cursor are zero, TryInit writes the magic,
      points the chain at offset 16, sets the cursor to 60 and writes nothing
      else. */
  lemma InitFresh(p: Page, magic: int)
    requires Read(p, MagicAt) == 0 && Cursor(p) == 0
    ensures TryInit(p, magic).Success?
    ensures var q := TryInit(p, magic).value;
      && q.size == p.size
      && Read(q, MagicAt) == magic
      && Read(q, AllocationTableOffsetAt) == 16
      && Cursor(q) == 60
      && forall a :: a != MagicAt && a != AllocationTableOffsetAt && a != AllocationSizeAt ==>
           Read(q, a) == Read(p, a)
  {
  }

  /** TryInit fails exactly on a foreign magic, or on a zero magic with a
      nonzero cursor; a page that already carries the magic comes back as
      it was. */
  lemma InitOutcome(p: Page, magic: int)
    ensures TryInit(p, magic).Failure? <==>
      (Read(p, MagicAt) != 0 && Read(p, MagicAt) != magic) ||
      (Read(p, MagicAt) == 0 && Cursor(p) != 0)
    ensures Read(p, MagicAt) != 0 && TryInit(p, magic).Success? ==> TryInit(p, magic).value == p
  {
  }

  /** With a nonzero magic, a second TryInit is a no-op. */
  lemma InitIdempotent(p: Page, magic: int)
    requires magic != 0
    requires TryInit(p, magic).Success?
    ensures TryInit(TryInit(p, magic).value, magic) == Success(TryInit(p, magic).value)
  {
  }

  /** A zero magic leaves the header looking uninitialized but with a nonzero
      cursor, so repeating TryInit with zero is rejected. */
  lemma InitZeroMagicRepeatFails(p: Page)
    requires Read(p, MagicAt) == 0 && Cursor(p) == 0
    ensures TryInit(p, 0).Success?
    ensures TryInit(TryInit(p, 0).value, 0).Failure?
  {
  }

  /** Initializing a zeroed page yields a well-formed page whose single table
      is empty. */
  lemma InitEstablishesWf(p: Page, magic: int)
    requires FirstCursor <= p.size <= MaxPageSize
    requires Read(p, MagicAt) == 0 && Cursor(p) == 0
    requires ZeroFrom(p, HeaderSize)
    ensures TryInit(p, magic).Success?
    ensures var q := TryInit(p, magic).value;
      Wf(q) && Chain(q) == Some([HeaderSize]) &&
      forall k :: 0 <= k < TableSize ==> Entries(q, [HeaderSize])[k] == EmptySlot
  {
    var q := TryInit(p, magic).value;
    ZeroRead(p, HeaderSize, HeaderSize);
    assert NodesFrom(q, HeaderSize) == Some([HeaderSize]);
    var e := Entries(q, [HeaderSize]);
    forall k | 0 <= k < TableSize
      ensures e[k] == EmptySlot
    {
      EntryAt(q, [HeaderSize], k);
      ZeroRead(p, HeaderSize, SlotIdAt(HeaderSize, k));
      ZeroRead(p, HeaderSize, SlotOffsetAt(HeaderSize, k));
    }
  }

  // ---------------------------------------------------------------------
  // TryFindAllocated
  // ---------------------------------------------------------------------

  /** The reference lookup: the offset recorded in the first slot that holds
      `id`, unless an empty slot comes first; zero when there is none. */
  function Find(p: Page, id: int): (r: int)
    requires Chain(p).Some?
  {
    var e := Entries(p, Chain(p).value);
    var k := FirstStop(e, id);
    if k < |e| && e[k].id != 0 then e[k].offset else 0
  }

  /** The lookup as the allocator performs it: walk the chain table by table
      and each table slot by slot, stopping at the first empty slot or the
      first matching id. The length is accepted and not compared. */
  method TryFindAllocated(p: Page, id: int, len: int) returns (r: int)
    requires Chain(p).Some?
    ensures r == Find(p, id)
  {
    ghost var ns := Chain(p).value;
    ghost var e := Entries(p, ns);
    ChainShape(p, Read(p, AllocationTableOffsetAt), ns);
    var offset := Read(p, AllocationTableOffsetAt);
    ghost var t := 0;
    while offset != 0
      invariant 0 <= t <= |ns|
      invariant offset == if t < |ns| then ns[t] else 0
      invariant forall j :: 0 <= j < t * TableSize ==> e[j].id != 0 && e[j].id != id
      decreases |ns| - t
    {
      var i := 0;
      while i < TableSize
        invariant 0 <= i <= TableSize
        invariant forall j :: 0 <= j < t * TableSize + i ==> e[j].id != 0 && e[j].id != id
      {
        EntryOfTable(p, ns, t, i);
        var currentId := Read(p, SlotIdAt(offset, i));
        if currentId == 0 {
          FindStopsAt(p, id, t * TableSize + i);
          return 0;
        } else if currentId == id {
          FindStopsAt(p, id, t * TableSize + i);
          return Read(p, SlotOffsetAt(offset, i));
        }
        i := i + 1;
      }
      offset := Read(p, offset);
      t := t + 1;
    }
    FindStopsAt(p, id, |e|);
    return 0;
  }

  /** The lookup is decided by the first slot that stops the scan. */
  lemma FindStopsAt(p: Page, id: int, m: int)
    requires Chain(p).Some?
    requires var e := Entries(p, Chain(p).value);
      && 0 <= m <= |e|
      && (forall j :: 0 <= j < m ==> e[j].id != 0 && e[j].id != id)
      && (m < |e| ==> e[m].id == 0 || e[m].id == id)
    ensures var e := Entries(p, Chain(p).value);
      Find(p, id) == if m < |e| && e[m].id != 0 then e[m].offset else 0
  {
    FirstStopAt(Entries(p, Chain(p).value), id, m);
  }

  /** On a well-formed page, looking up a nonzero id yields the offset of the
      first slot holding it, and zero exactly when no slot holds it. */
  lemma FindFirstMatch(p: Page, id: int)
    requires Wf(p) && id != 0
    ensures var e := Entries(p, Chain(p).value);
      && (Find(p, id) == 0 <==> forall k :: 0 <= k < |e| ==> e[k].id != id)
      && forall k :: 0 <= k < |e| && e[k].id == id && (forall j :: 0 <= j < k ==> e[j].id != id) ==>
           Find(p, id) == e[k].offset
  {
    var e := Entries(p, Chain(p).value);
    var k0 := FirstStop(e, id);
    if k0 < |e| && e[k0].id == id {
      assert FirstCursor <= e[k0].offset;
    } else {
      assert forall k :: 0 <= k < |e| ==> e[k].id != id by {
        forall k | 0 <= k < |e|
          ensures e[k].id != id
        {
          if k > k0 {
            assert e[k0].id == 0;
          }
        }
      }
    }
  }

  // ---------------------------------------------------------------------
  // ApplyAlignment
  // ---------------------------------------------------------------------

  /** Rounds `offset` up to a multiple of `alignment`. The division truncates
      in the source, which agrees with Dafny's on these non-negative operands;
      the bound on the sum rules out the int overflow the source would hit. */
  function ApplyAlignment(offset: int, alignment: int): (r: int)
    requires 0 <= offset && 1 <= alignment && offset + alignment - 1 <= Int32Max
    ensures r % alignment == 0
    ensures offset <= r < offset + alignment
  {
    var q := (offset + alignment - 1) / alignment;
    DivModUnique(q * alignment, alignment, q, 0);
    q * alignment
  }

  /** The rounded value is the least multiple of `alignment` at or above
      `offset`. */
  lemma AlignmentIsLeast(offset: int, alignment: int, m: int)
    requires 0 <= offset && 1 <= alignment && offset + alignment - 1 <= Int32Max
    requires m >= offset && m % alignment == 0
    ensures ApplyAlignment(offset, alignment) <= m
  {
    var r := ApplyAlignment(offset, alignment);
    var x := m / alignment;
    var y := r / alignment;
    assert m == x * alignment;
    assert r == y * alignment;
    if x < y {
      MulAtLeast(alignment, y - x);
      assert false;
    }
  }

  lemma MulAtLeast(a: int, d: int)
    requires 1 <= a && 1 <= d
    ensures d * a >= a
  {
    assert d * a == (d - 1) * a + a;
    assert (d - 1) * a >= 0;
  }

  /** Quotient and remainder are determined by any decomposition with a
      remainder in range. */
  lemma DivModUnique(x: int, a: int, q: int, s: int)
    requires 1 <= a && 0 <= s < a && x == q * a + s
    ensures x / a == q && x % a == s
  {
    var q' := x / a;
    var s' := x % a;
    assert x == q' * a + s';
    assert (q - q') * a == s' - s;
    if q - q' >= 1 {
      MulAtLeast(a, q - q');
    } else if q' - q >= 1 {
      MulAtLeast(a, q' - q);
    }
  }

  // ---------------------------------------------------------------------
  // TryAllocate
  // ---------------------------------------------------------------------

  /** The returned offset, zero for "no room", and the page afterwards. */
  datatype Allocation = Allocation(offset: int, page: Page)

  /** What TryAllocate needs of the page: a cursor inside it and a chain it
      can walk to the end. */
  predicate Allocatable(p: Page) {
    0 <= Cursor(p) <= p.size <= MaxPageSize && Chain(p).Some?
  }

  predicate ValidRequest(len: int, alignment: int) {
    0 <= len <= MaxRequest && 1 <= alignment <= MaxRequest
  }

  /** Where the data of a request goes: the cursor rounded up. */
  function DataOffset(p: Page, alignment: int): int
    requires Allocatable(p) && 1 <= alignment <= MaxRequest
  {
    ApplyAlignment(Cursor(p), alignment)
  }

  /** Where a new table goes: just past the data, rounded up to a word. */
  function NewTableOffset(dataEnd: int): int
    requires 0 <= dataEnd <= MaxPageSize
  {
    ApplyAlignment(dataEnd, 4)
  }

  /** The stores that record `s` in slot i of the table at n and then move
      the cursor, in the order the allocator makes them. */
  function FillSlotWrites(p: Page, n: int, i: int, s: Slot, cursor: int): (q: Page)
    ensures q.size == p.size && Cursor(q) == cursor
    ensures SlotIdAt(n, i) != AllocationSizeAt ==> Read(q, SlotIdAt(n, i)) == s.id
    ensures SlotOffsetAt(n, i) != AllocationSizeAt ==> Read(q, SlotOffsetAt(n, i)) == s.offset
    ensures forall a :: (a != SlotIdAt(n, i) && a != SlotOffsetAt(n, i) && a != AllocationSizeAt) ==>
      Read(q, a) == Read(p, a)
  {
    var ws := [Store(SlotIdAt(n, i), s.id), Store(SlotOffsetAt(n, i), s.offset),
               Store(AllocationSizeAt, cursor)];
    ApplyThree(p, ws[0], ws[1], ws[2]);
    Apply(p, ws)
  }

  /** The stores that point the link at `last` to a new table at t, record
      `s` in the new table's first slot and move the cursor past the table. */
  function LinkTableWrites(p: Page, last: int, t: int, s: Slot): (q: Page)
    ensures q.size == p.size && Cursor(q) == t + TableStructSize
    ensures HeaderSize <= t ==> Read(q, SlotIdAt(t, 0)) == s.id && Read(q, SlotOffsetAt(t, 0)) == s.offset
    ensures last != AllocationSizeAt && last < t ==> Read(q, last) == t
    ensures forall a ::
      (a != last && a != SlotIdAt(t, 0) && a != SlotOffsetAt(t, 0) && a != AllocationSizeAt) ==>
        Read(q, a) == Read(p, a)
  {
    var ws := [Store(last, t), Store(SlotIdAt(t, 0), s.id), Store(SlotOffsetAt(t, 0), s.offset),
               Store(AllocationSizeAt, t + TableStructSize)];
    ApplyFour(p, ws[0], ws[1], ws[2], ws[3]);
    Apply(p, ws)
  }

  /** Places a block of `len` bytes at the cursor rounded up to `alignment`
      and records (id, offset) in the first empty slot of the chain; when
      every slot is used, links a new table after the data. Returns offset 0
      and the page as it was when the block, or the new table, would not fit.
      Existing entries are not checked for the same id. */
  function TryAllocate(p: Page, id: int, len: int, alignment: int): (r: Allocation)
    requires Allocatable(p) && ValidRequest(len, alignment)
    ensures r.page.size == p.size
    ensures r.page == p || (Cursor(p) <= r.offset && r.offset + len <= Cursor(r.page) <= p.size)
  {
    var dataOffset := DataOffset(p, alignment);
    if dataOffset + len > p.size then Allocation(0, p)
    else
      var ns := Chain(p).value;
      var e := Entries(p, ns);
      var k := FirstStop(e, 0);
      if k < |e| then
        var q := FillSlotWrites(p, ns[k / TableSize], k % TableSize, Slot(id, dataOffset), dataOffset + len);
        Allocation(dataOffset, q)
      else
        var tableOffset := NewTableOffset(dataOffset + len);
        if tableOffset + TableStructSize > p.size then Allocation(0, p)
        else
          var last := if |ns| == 0 then 0 else ns[|ns| - 1];
          Allocation(dataOffset, LinkTableWrites(p, last, tableOffset, Slot(id, dataOffset)))
  }

  /** On a well-formed page TryAllocate fails, returning 0 and the page as it
      was, exactly when the data would pass the end of the page, or when no
      slot is empty and a new table after the data would. Otherwise it
      returns the least `alignment` multiple at or above the old cursor, which
      is nonzero, and the block ends at or below the new cursor. */
  lemma AllocateOutcome(p: Page, id: int, len: int, alignment: int)
    requires Wf(p) && ValidRequest(len, alignment)
    ensures var r := TryAllocate(p, id, len, alignment);
      var d := DataOffset(p, alignment);
      var e := Entries(p, Chain(p).value);
      && (r.offset == 0 <==>
           d + len > p.size ||
           (FirstStop(e, 0) == |e| && NewTableOffset(d + len) + TableStructSize > p.size))
      && (r.offset == 0 ==> r.page == p)
      && (r.offset != 0 ==>
           && r.offset == d
           && FirstCursor <= Cursor(p) <= r.offset
           && r.offset + len <= Cursor(r.page) <= p.size)
  {
  }

  // -- the two ways a successful allocation changes the page --

  /** In the filling case TryAllocate is the slot writes at the first empty
      slot. */
  lemma AllocateFills(p: Page, id: int, len: int, alignment: int)
    requires Allocatable(p) && ValidRequest(len, alignment)
    requires DataOffset(p, alignment) + len <= p.size
    requires FirstStop(Entries(p, Chain(p).value), 0) < |Entries(p, Chain(p).value)|
    ensures var d := DataOffset(p, alignment);
      var ns := Chain(p).value;
      var k := FirstStop(Entries(p, ns), 0);
      TryAllocate(p, id, len, alignment) ==
        Allocation(d, FillSlotWrites(p, ns[k / TableSize], k % TableSize, Slot(id, d), d + len))
  {
  }

  /** The page after filling the first empty slot, k, with `s` and moving
      the cursor forward. */
  lemma FilledPage(p: Page, k: int, s: Slot, cursor: int)
    requires Wf(p)
    requires k == FirstStop(Entries(p, Chain(p).value), 0) && k < |Entries(p, Chain(p).value)|
    requires Cursor(p) <= cursor <= p.size
    requires s.id != 0 ==> FirstCursor <= s.offset <= cursor
    ensures var ns := Chain(p).value;
      var q := FillSlotWrites(p, ns[k / TableSize], k % TableSize, s, cursor);
      && Chain(q) == Chain(p)
      && Entries(q, ns) == Entries(p, ns)[k := s]
  {
    var ns := Chain(p).value;
    ChainShape(p, HeaderSize, ns);
    EntryAt(p, ns, k);
    var n := ns[k / TableSize];
    var i := k % TableSize;
    var q := FillSlotWrites(p, n, i, s, cursor);
    SlotInsideTable(n, i);
    SlotChainFrame(p, q, ns, k);
    EntriesAfterSlotWrite(p, q, ns, k, s);
  }

  /** Filling the first empty slot keeps the page well-formed. */
  lemma FilledPageWf(p: Page, k: int, s: Slot, cursor: int)
    requires Wf(p)
    requires k == FirstStop(Entries(p, Chain(p).value), 0) && k < |Entries(p, Chain(p).value)|
    requires Cursor(p) <= cursor <= p.size
    requires s.id != 0 ==> FirstCursor <= s.offset <= cursor
    ensures var ns := Chain(p).value;
      Wf(FillSlotWrites(p, ns[k / TableSize], k % TableSize, s, cursor))
  {
    var ns := Chain(p).value;
    var e := Entries(p, ns);
    FilledPage(p, k, s, cursor);
    ChainShape(p, HeaderSize, ns);
    EntryAt(p, ns, k);
    var n := ns[k / TableSize];
    var i := k % TableSize;
    var q := FillSlotWrites(p, n, i, s, cursor);
    SlotInsideTable(n, i);
    FilledSlotKeepsTrail(e, k, s);
    ApplyBelowKeepsZero(p, [Store(SlotIdAt(n, i), s.id), Store(SlotOffsetAt(n, i), s.offset),
                            Store(AllocationSizeAt, cursor)], cursor);
    WfFromParts(q, ns);
  }

  /** Rewriting one slot and the cursor leaves the chain's links alone. */
  lemma SlotChainFrame(p: Page, q: Page, ns: seq<int>, k: int)
    requires Chain(p) == Some(ns) && Read(p, AllocationTableOffsetAt) == HeaderSize
    requires 0 <= k < |ns| * TableSize
    requires q.size == p.size
    requires forall a ::
      (a != SlotIdAt(ns[k / TableSize], k % TableSize) &&
       a != SlotOffsetAt(ns[k / TableSize], k % TableSize) &&
       a != AllocationSizeAt) ==> Read(q, a) == Read(p, a)
    ensures Chain(q) == Some(ns)
  {
    ChainShape(p, HeaderSize, ns);
    forall j | 0 <= j < |ns|
      ensures Read(q, ns[j]) == Read(p, ns[j])
    {
      SlotAddressesDistinct(ns, k / TableSize, k % TableSize, j, 0);
    }
    ChainFrame(p, q, HeaderSize, ns);
  }

  /** Writing into the first empty slot keeps empty slots trailing. */
  lemma FilledSlotKeepsTrail(e: seq<Slot>, k: int, s: Slot)
    requires EmptiesTrail(e) && 0 <= k < |e| && k == FirstStop(e, 0)
    ensures EmptiesTrail(e[k := s])
  {
    var e' := e[k := s];
    forall a, b | 0 <= a < b < |e'| && e'[a].id == 0
      ensures e'[b].id == 0
    {
      if a != k {
        assert k <= a;
      }
      assert e[k].id == 0;
    }
  }

  /** In the linking case TryAllocate is the four linking writes. */
  lemma AllocateLinks(p: Page, id: int, len: int, alignment: int)
    requires Allocatable(p) && ValidRequest(len, alignment)
    requires Read(p, AllocationTableOffsetAt) == HeaderSize
    requires DataOffset(p, alignment) + len <= p.size
    requires FirstStop(Entries(p, Chain(p).value), 0) == |Entries(p, Chain(p).value)|
    requires NewTableOffset(DataOffset(p, alignment) + len) + TableStructSize <= p.size
    ensures var d := DataOffset(p, alignment);
      var ns := Chain(p).value;
      ns != [] &&
      TryAllocate(p, id, len, alignment) ==
        Allocation(d, LinkTableWrites(p, ns[|ns| - 1], NewTableOffset(d + len), Slot(id, d)))
  {
  }

  /** The page after linking a new table t, holding `s`, behind the last
      table of a chain whose slots are all used. */
  lemma LinkedPage(p: Page, t: int, s: Slot)
    requires Wf(p)
    requires FirstStop(Entries(p, Chain(p).value), 0) == |Entries(p, Chain(p).value)|
    requires Cursor(p) <= t && t % 4 == 0 && t + TableStructSize <= p.size
    requires s.id != 0 ==> FirstCursor <= s.offset <= t
    ensures var ns := Chain(p).value;
      ns != [] &&
      var q := LinkTableWrites(p, ns[|ns| - 1], t, s);
      && Chain(q) == Some(ns + [t])
      && Entries(q, ns + [t]) == Entries(p, ns) + NewTableSlots(s)
  {
    var ns := Chain(p).value;
    ChainShape(p, HeaderSize, ns);
    var last := ns[|ns| - 1];
    var q := LinkTableWrites(p, last, t, s);
    assert last + TableStructSize <= Cursor(p) <= t;
    LinkChainFrame(p, q, ns, t);
    EntriesAfterLink(p, q, ns, t, s, Cursor(p));
  }

  /** Linking a new table keeps the page well-formed. */
  lemma LinkedPageWf(p: Page, t: int, s: Slot)
    requires Wf(p)
    requires FirstStop(Entries(p, Chain(p).value), 0) == |Entries(p, Chain(p).value)|
    requires Cursor(p) <= t && t % 4 == 0 && t + TableStructSize <= p.size
    requires s.id != 0 ==> FirstCursor <= s.offset <= t
    ensures var ns := Chain(p).value;
      ns != [] && Wf(LinkTableWrites(p, ns[|ns| - 1], t, s))
  {
    var ns := Chain(p).value;
    var e := Entries(p, ns);
    LinkedPage(p, t, s);
    ChainShape(p, HeaderSize, ns);
    var last := ns[|ns| - 1];
    var q := LinkTableWrites(p, last, t, s);
    LinkedTableKeepsTrail(e, s);
    LinkedTableRecorded(e, s, Cursor(p), t + TableStructSize);
    assert TablesBelow(ns + [t], Cursor(q));
    LinkedZero(p, last, t, s);
    WfFromParts(q, ns + [t]);
  }

  lemma LinkedTableRecorded(e: seq<Slot>, s: Slot, cursor: int, cursor': int)
    requires OffsetsRecorded(e, cursor) && cursor <= cursor'
    requires s.id != 0 ==> FirstCursor <= s.offset <= cursor'
    ensures OffsetsRecorded(e + NewTableSlots(s), cursor')
  {
    var added := NewTableSlots(s);
    var e' := e + added;
    forall j | |e| <= j < |e'|
      ensures e'[j] == added[j - |e|]
    {
    }
  }

  /** The linking writes all land below the new cursor. */
  lemma LinkedZero(p: Page, last: int, t: int, s: Slot)
    requires ZeroFrom(p, Cursor(p)) && last < Cursor(p) <= t
    ensures ZeroFrom(LinkTableWrites(p, last, t, s), t + TableStructSize)
  {
    var c := t + TableStructSize;
    assert ZeroFrom(p, c);
    ApplyBelowKeepsZero(p, [Store(last, t), Store(SlotIdAt(t, 0), s.id), Store(SlotOffsetAt(t, 0), s.offset),
                            Store(AllocationSizeAt, c)], c);
  }

  lemma WfFromParts(q: Page, ns: seq<int>)
    requires FirstCursor <= q.size <= MaxPageSize
    requires Read(q, AllocationTableOffsetAt) == HeaderSize
    requires FirstCursor <= Cursor(q) <= q.size
    requires Chain(q) == Some(ns)
    requires TablesBelow(ns, Cursor(q))
    requires EmptiesTrail(Entries(q, ns))
    requires OffsetsRecorded(Entries(q, ns), Cursor(q))
    requires ZeroFrom(q, Cursor(q))
    ensures Wf(q)
  {
  }

  /** Pointing the last link at a table placed in zeroed memory past the
      cursor appends that table to the chain. */
  lemma LinkChainFrame(p: Page, q: Page, ns: seq<int>, t: int)
    requires Wf(p) && Chain(p) == Some(ns)
    requires Cursor(p) <= t && t % 4 == 0 && t + TableStructSize <= p.size
    requires q.size == p.size
    requires ns != [] && Read(q, ns[|ns| - 1]) == t
    requires Read(q, AllocationTableOffsetAt) == HeaderSize && Read(q, t) == Read(p, t)
    requires forall a ::
      (a != ns[|ns| - 1] && a != SlotIdAt(t, 0) && a != SlotOffsetAt(t, 0) &&
       a != AllocationSizeAt) ==> Read(q, a) == Read(p, a)
    ensures Chain(q) == Some(ns + [t])
  {
    ChainShape(p, HeaderSize, ns);
    var last := ns[|ns| - 1];
    forall j | 0 <= j < |ns| - 1
      ensures Read(q, ns[j]) == Read(p, ns[j])
    {
      assert ns[j] + TableStructSize <= last;
      assert ns[j] + TableStructSize <= Cursor(p);
    }
    ZeroRead(p, Cursor(p), t);
    ChainExtend(p, q, HeaderSize, ns, t);
  }

  /** Appending a table's slots after a run of used slots keeps empty slots
      trailing. */
  lemma LinkedTableKeepsTrail(e: seq<Slot>, s: Slot)
    requires FirstStop(e, 0) == |e|
    ensures EmptiesTrail(e + NewTableSlots(s))
  {
    var added := NewTableSlots(s);
    var e' := e + added;
    assert forall j :: 0 <= j < |e| ==> e'[j].id != 0;
    forall j | |e| < j < |e'|
      ensures e'[j].id == 0
    {
      assert e'[j] == added[j - |e|];
    }
  }

  /** A successful allocation into the first empty slot: the result is the
      slot writes, and the page stays well-formed with that slot filled. */
  lemma FillCase(p: Page, id: int, len: int, alignment: int)
    requires Wf(p) && ValidRequest(len, alignment)
    requires DataOffset(p, alignment) + len <= p.size
    requires FirstStop(Entries(p, Chain(p).value), 0) < |Entries(p, Chain(p).value)|
    ensures var d := DataOffset(p, alignment);
      var ns := Chain(p).value;
      var k := FirstStop(Entries(p, ns), 0);
      var q := FillSlotWrites(p, ns[k / TableSize], k % TableSize, Slot(id, d), d + len);
      && TryAllocate(p, id, len, alignment) == Allocation(d, q)
      && Wf(q)
      && Chain(q) == Chain(p)
      && Entries(q, ns) == Entries(p, ns)[k := Slot(id, d)]
  {
    var d := DataOffset(p, alignment);
    var k := FirstStop(Entries(p, Chain(p).value), 0);
    AllocateFills(p, id, len, alignment);
    FilledPage(p, k, Slot(id, d), d + len);
    FilledPageWf(p, k, Slot(id, d), d + len);
  }

  /** A successful allocation that links a new table: the result is the
      linking writes, and the page stays well-formed with the new table's
      slots appended. */
  lemma LinkCase(p: Page, id: int, len: int, alignment: int)
    requires Wf(p) && ValidRequest(len, alignment)
    requires DataOffset(p, alignment) + len <= p.size
    requires FirstStop(Entries(p, Chain(p).value), 0) == |Entries(p, Chain(p).value)|
    requires NewTableOffset(DataOffset(p, alignment) + len) + TableStructSize <= p.size
    ensures var d := DataOffset(p, alignment);
      var ns := Chain(p).value;
      var t := NewTableOffset(d + len);
      ns != [] &&
      var q := LinkTableWrites(p, ns[|ns| - 1], t, Slot(id, d));
      && TryAllocate(p, id, len, alignment) == Allocation(d, q)
      && Wf(q)
      && Chain(q) == Some(ns + [t])
      && Entries(q, ns + [t]) == Entries(p, ns) + NewTableSlots(Slot(id, d))
  {
    var d := DataOffset(p, alignment);
    var t := NewTableOffset(d + len);
    AllocateLinks(p, id, len, alignment);
    LinkedPage(p, t, Slot(id, d));
    LinkedPageWf(p, t, Slot(id, d));
  }

  /** TryAllocate keeps a page well-formed. */
  lemma AllocatePreservesWf(p: Page, id: int, len: int, alignment: int)
    requires Wf(p) && ValidRequest(len, alignment)
    ensures Wf(TryAllocate(p, id, len, alignment).page)
  {
    var d := DataOffset(p, alignment);
    var e := Entries(p, Chain(p).value);
    if d + len <= p.size {
      if FirstStop(e, 0) < |e| {
        FillCase(p, id, len, alignment);
      } else if NewTableOffset(d + len) + TableStructSize <= p.size {
        LinkCase(p, id, len, alignment);
      }
    }
  }

  /** Slot list e' keeps every slot of e except slot k, which holds s. */
  predicate Recorded(e: seq<Slot>, e': seq<Slot>, k: int, s: Slot) {
    && |e| <= |e'| && 0 <= k < |e'|
    && (forall j :: 0 <= j < |e| && j != k ==> e'[j] == e[j])
    && e'[k] == s
  }

  /** The slot list after recording s: the first empty slot receives it,
      or, when every slot is used, a new table holding it is appended. */
  function AfterRecord(e: seq<Slot>, s: Slot): seq<Slot> {
    var k := FirstStop(e, 0);
    if k < |e| then e[k := s] else e + NewTableSlots(s)
  }

  /** Recording keeps every used slot and puts s at the first stop. */
  lemma RecordKeepsUsed(e: seq<Slot>, s: Slot)
    ensures Recorded(e, AfterRecord(e, s), FirstStop(e, 0), s)
  {
    var e' := AfterRecord(e, s);
    if FirstStop(e, 0) == |e| {
      assert e' == e + NewTableSlots(s);
      assert forall j :: 0 <= j < |e| ==> e'[j] == e[j];
    }
  }

  /** A successful TryAllocate changes the slot list exactly as recording
      the new entry does: used slots keep their contents, the first empty
      one receives the entry, or a new table is linked to hold it. */
  lemma AllocateKeepsUsedSlots(p: Page, id: int, len: int, alignment: int)
    requires Wf(p) && ValidRequest(len, alignment)
    requires TryAllocate(p, id, len, alignment).offset != 0
    ensures var r := TryAllocate(p, id, len, alignment);
      Chain(r.page).Some? &&
      Entries(r.page, Chain(r.page).value) ==
        AfterRecord(Entries(p, Chain(p).value), Slot(id, r.offset))
  {
    var d := DataOffset(p, alignment);
    var e := Entries(p, Chain(p).value);
    AllocateOutcome(p, id, len, alignment);
    if FirstStop(e, 0) < |e| {
      FillCase(p, id, len, alignment);
    } else {
      LinkCase(p, id, len, alignment);
    }
  }

  /** After allocating a nonzero id that the page did not hold, looking it up
      yields the new offset. */
  lemma FindAfterAllocate(p: Page, id: int, len: int, alignment: int)
    requires Wf(p) && ValidRequest(len, alignment) && id != 0
    requires Find(p, id) == 0
    requires TryAllocate(p, id, len, alignment).offset != 0
    ensures var r := TryAllocate(p, id, len, alignment);
      Chain(r.page).Some? && Find(r.page, id) == r.offset
  {
    var r := TryAllocate(p, id, len, alignment);
    var e := Entries(p, Chain(p).value);
    var k := FirstStop(e, 0);
    FindFirstMatch(p, id);
    AllocateKeepsUsedSlots(p, id, len, alignment);
    RecordKeepsUsed(e, Slot(id, r.offset));
    var e' := Entries(r.page, Chain(r.page).value);
    FindStopsAt(r.page, id, k);
  }

  /** Two successive allocations return disjoint ranges: the first lies
      above the header and every table of the page it was taken from, and
      the second, when it succeeds, starts at or after the end of the
      first. */
  lemma SuccessiveAllocationsDisjoint(p: Page, id1: int, len1: int, align1: int,
                                      id2: int, len2: int, align2: int)
    requires Wf(p) && ValidRequest(len1, align1) && ValidRequest(len2, align2)
    requires TryAllocate(p, id1, len1, align1).offset != 0
    ensures Wf(TryAllocate(p, id1, len1, align1).page)
    ensures var r1 := TryAllocate(p, id1, len1, align1);
      var r2 := TryAllocate(r1.page, id2, len2, align2);
      && FirstCursor <= r1.offset
      && (forall j :: 0 <= j < |Chain(p).value| ==> Chain(p).value[j] + TableStructSize <= r1.offset)
      && (r2.offset != 0 ==> r1.offset + len1 <= r2.offset)
  {
    var r1 := TryAllocate(p, id1, len1, align1);
    AllocateOutcome(p, id1, len1, align1);
    AllocatePreservesWf(p, id1, len1, align1);
    AllocateOutcome(r1.page, id2, len2, align2);
  }
}

=== FILE: page_layout.dfy ===
/**
  * The layout of one shared-memory page as the per-page allocator sees it.
  *
  * A page is a buffer of 32-bit words addressed by byte offset. It opens with
  * a 16-byte header (magic, lock, allocation cursor, offset of the first
  * allocation table) followed by a singly linked chain of allocation tables.
  * Each table is 44 bytes: a next link and five (id, offset) slots. Data
  * blocks are placed between the tables by a bump cursor.
  */
module PageLayout {
  import opened Wrappers

  // Header fields (byte offsets of the four ints at the start of a page).
  const MagicAt := 0
  const LockAt := 4
  const AllocationSizeAt := 8
  const AllocationTableOffsetAt := 12
  const HeaderSize := 16

  /** Slots per allocation table, and the table's size in bytes. */
  const TableSize := 5
  const TableStructSize := 4 * (1 + TableSize * 2)

  /** The cursor right after the header and the first table. */
  const FirstCursor := HeaderSize + TableStructSize

  /** Bounds that keep every intermediate value of the allocator inside a
      signed 32-bit int. */
  const MaxPageSize := 0x4000_0000
  const MaxRequest := 0x2000_0000

  /** A page: its size in bytes and the words stored in it. A word that was
      never written reads as zero, as the memory-mapped files start zeroed. */
  datatype Page = Page(size: int, words: map<int, int>)

  function Read(p: Page, at: int): int {
    if at in p.words then p.words[at] else 0
  }

  function Write(p: Page, at: int, v: int): (q: Page)
    ensures q.size == p.size
    ensures Read(q, at) == v
    ensures forall a :: a != at ==> Read(q, a) == Read(p, a)
  {
    p.(words := p.words[at := v])
  }

  /** One word store: the value written and the byte offset it goes to. */
  datatype Store = Store(at: int, value: int)

  /** The page after making the stores in order; a later store to the same
      offset overwrites an earlier one. */
  function Apply(p: Page, ws: seq<Store>): (q: Page)
    ensures q.size == p.size
    decreases |ws|
  {
    if ws == [] then p else Apply(Write(p, ws[0].at, ws[0].value), ws[1..])
  }

  /** Applying a list of stores is making its first store, then the rest. */
  lemma ApplyCons(p: Page, w: Store, ws: seq<Store>)
    ensures Apply(p, [w] + ws) == Apply(Write(p, w.at, w.value), ws)
  {
    assert ([w] + ws)[1..] == ws;
  }

  /** Three stores, spelled out as single writes. */
  lemma ApplyThree(p: Page, w0: Store, w1: Store, w2: Store)
    ensures Apply(p, [w0, w1, w2]) ==
      Write(Write(Write(p, w0.at, w0.value), w1.at, w1.value), w2.at, w2.value)
  {
    var p1 := Write(p, w0.at, w0.value);
    var p2 := Write(p1, w1.at, w1.value);
    ApplyCons(p, w0, [w1, w2]);
    ApplyCons(p1, w1, [w2]);
    ApplyCons(p2, w2, []);
  }

  /** Four stores, spelled out as single writes. */
  lemma ApplyFour(p: Page, w0: Store, w1: Store, w2: Store, w3: Store)
    ensures Apply(p, [w0, w1, w2, w3]) ==
      Write(Write(Write(Write(p, w0.at, w0.value), w1.at, w1.value), w2.at, w2.value), w3.at, w3.value)
  {
    ApplyCons(p, w0, [w1, w2, w3]);
    ApplyThree(Write(p, w0.at, w0.value), w1, w2, w3);
  }

  function Cursor(p: Page): int {
    Read(p, AllocationSizeAt)
  }

  /** Byte offsets of the id and offset fields of slot i of the table at n. */
  function SlotIdAt(n: int, i: int): int {
    n + 4 + 8 * i
  }

  function SlotOffsetAt(n: int, i: int): int {
    n + 8 + 8 * i
  }

  // ---------------------------------------------------------------------
  // The chain of allocation tables
  // ---------------------------------------------------------------------

  /** The table offsets reached from `off` by following next links, or None
      when a link leaves the page, points below the header, is misaligned or
      does not point strictly past the table it starts from. A link of zero
      ends the chain. */
  function NodesFrom(p: Page, off: int): Option<seq<int>>
    decreases p.size - off
  {
    if off == 0 then Some([])
    else if off < HeaderSize || off % 4 != 0 || off + TableStructSize > p.size then None
    else
      var next := Read(p, off);
      if next == 0 then Some([off])
      else if next < off + TableStructSize then None
      else match NodesFrom(p, next)
        case None => None
        case Some(rest) => Some([off] + rest)
  }

  function Chain(p: Page): Option<seq<int>> {
    NodesFrom(p, Read(p, AllocationTableOffsetAt))
  }

  /** Tables that do not overlap: each one ends at or before the next starts. */
  predicate Spaced(ns: seq<int>) {
    forall a, b :: 0 <= a < b < |ns| ==> ns[a] + TableStructSize <= ns[b]
  }

  predicate InPage(p: Page, ns: seq<int>) {
    forall j :: 0 <= j < |ns| ==>
      HeaderSize <= ns[j] && ns[j] % 4 == 0 && ns[j] + TableStructSize <= p.size
  }

  /** Everything a walk of the chain relies on: it starts at `s`, every link
      leads to the next table, and the last link is zero. */
  lemma {:induction false} ChainShape(p: Page, s: int, ns: seq<int>)
    requires NodesFrom(p, s) == Some(ns)
    ensures s == 0 <==> ns == []
    ensures ns != [] ==> ns[0] == s && Read(p, ns[|ns| - 1]) == 0
    ensures forall j :: 0 <= j < |ns| - 1 ==> Read(p, ns[j]) == ns[j + 1]
    ensures InPage(p, ns)
    ensures Spaced(ns)
    decreases p.size - s
  {
    if s != 0 {
      var next := Read(p, s);
      if next != 0 {
        var rest := NodesFrom(p, next).value;
        assert ns == [s] + rest;
        ChainShape(p, next, rest);
      }
    }
  }

  /** A page that agrees with `p` on every next link of the chain has the
      same chain. */
  lemma {:induction false} ChainFrame(p: Page, q: Page, s: int, ns: seq<int>)
    requires NodesFrom(p, s) == Some(ns)
    requires q.size == p.size
    requires forall j :: 0 <= j < |ns| ==> Read(q, ns[j]) == Read(p, ns[j])
    ensures NodesFrom(q, s) == Some(ns)
    decreases p.size - s
  {
    if s != 0 {
      ChainShape(p, s, ns);
      var next := Read(p, s);
      if next != 0 {
        var rest := NodesFrom(p, next).value;
        assert ns == [s] + rest;
        assert forall j :: 0 <= j < |rest| ==> rest[j] == ns[j + 1];
        ChainFrame(p, q, next, rest);
      }
    }
  }

  /** Pointing the last table's zero link at a fresh, zero-linked table `t`
      past it extends the chain by `t`. */
  lemma {:induction false} ChainExtend(p: Page, q: Page, s: int, ns: seq<int>, t: int)
    requires NodesFrom(p, s) == Some(ns) && ns != []
    requires q.size == p.size
    requires forall j :: 0 <= j < |ns| - 1 ==> Read(q, ns[j]) == Read(p, ns[j])
    requires Read(q, ns[|ns| - 1]) == t
    requires ns[|ns| - 1] + TableStructSize <= t && t % 4 == 0
    requires t + TableStructSize <= q.size && Read(q, t) == 0
    ensures NodesFrom(q, s) == Some(ns + [t])
    decreases p.size - s
  {
    ChainShape(p, s, ns);
    if |ns| == 1 {
      assert NodesFrom(q, t) == Some([t]);
      assert [s] + [t] == ns + [t];
    } else {
      var next := Read(p, s);
      var rest := NodesFrom(p, next).value;
      assert ns == [s] + rest;
      assert forall j :: 0 <= j < |rest| - 1 ==> rest[j] == ns[j + 1];
      ChainExtend(p, q, next, rest, t);
      assert [s] + (rest + [t]) == ns + [t];
    }
  }

  // ---------------------------------------------------------------------
  // The slots of the chain, in chain order
  // ---------------------------------------------------------------------

  datatype Slot = Slot(id: int, offset: int)

  const EmptySlot := Slot(0, 0)

  function SlotAt(p: Page, n: int, i: int): Slot {
    Slot(Read(p, SlotIdAt(n, i)), Read(p, SlotOffsetAt(n, i)))
  }

  /** All slots of the tables `ns`, five per table, in the order a walk of
      the chain visits them. */
  function Entries(p: Page, ns: seq<int>): (e: seq<Slot>)
    ensures |e| == |ns| * TableSize
  {
    seq(|ns| * TableSize, k requires 0 <= k < |ns| * TableSize =>
      SlotAt(p, ns[k / TableSize], k % TableSize))
  }

  /** Slot k is slot k % 5 of table k / 5. */
  lemma EntryAt(p: Page, ns: seq<int>, k: int)
    requires 0 <= k < |ns| * TableSize
    ensures 0 <= k / TableSize < |ns| && 0 <= k % TableSize < TableSize
    ensures Entries(p, ns)[k] == SlotAt(p, ns[k / TableSize], k % TableSize)
  {
  }

  /** Slot i of table t is entry 5t + i. */
  lemma EntryOfTable(p: Page, ns: seq<int>, t: int, i: int)
    requires 0 <= t < |ns| && 0 <= i < TableSize
    ensures 0 <= t * TableSize + i < |ns| * TableSize
    ensures Entries(p, ns)[t * TableSize + i] == SlotAt(p, ns[t], i)
  {
    var k := t * TableSize + i;
    assert k / TableSize == t && k % TableSize == i;
  }

  /** The first slot whose id is zero or `id`, or the slot count when there
      is none. */
  function FirstStop(e: seq<Slot>, id: int): (k: nat)
    ensures k <= |e|
    ensures forall j :: 0 <= j < k ==> e[j].id != 0 && e[j].id != id
    ensures k < |e| ==> e[k].id == 0 || e[k].id == id
  {
    if |e| == 0 || e[0].id == 0 || e[0].id == id then 0
    else 1 + FirstStop(e[1..], id)
  }

  /** A slot that stops the scan, with none before it, is the first stop. */
  lemma FirstStopAt(e: seq<Slot>, id: int, m: int)
    requires 0 <= m <= |e|
    requires forall j :: 0 <= j < m ==> e[j].id != 0 && e[j].id != id
    requires m < |e| ==> e[m].id == 0 || e[m].id == id
    ensures FirstStop(e, id) == m
  {
  }

  /** Empty slots are only ever followed by empty slots. */
  predicate EmptiesTrail(e: seq<Slot>) {
    forall a, b :: 0 <= a < b < |e| && e[a].id == 0 ==> e[b].id == 0
  }

  /** Every used slot records a block placed after the first table and
      before the cursor. */
  predicate OffsetsRecorded(e: seq<Slot>, cursor: int) {
    forall k :: 0 <= k < |e| && e[k].id != 0 ==> FirstCursor <= e[k].offset <= cursor
  }

  predicate ZeroFrom(p: Page, from: int) {
    forall a :: a in p.words && a >= from ==> p.words[a] == 0
  }

  predicate TablesBelow(ns: seq<int>, cursor: int) {
    forall j :: 0 <= j < |ns| ==> ns[j] + TableStructSize <= cursor
  }

  /** The invariant of an initialized page: the chain starts right after the
      header, every table lies below the cursor, used slots come first, and
      nothing at or above the cursor has been written. */
  predicate Wf(p: Page) {
    && FirstCursor <= p.size <= MaxPageSize
    && Read(p, AllocationTableOffsetAt) == HeaderSize
    && FirstCursor <= Cursor(p) <= p.size
    && Chain(p).Some?
    && TablesBelow(Chain(p).value, Cursor(p))
    && EmptiesTrail(Entries(p, Chain(p).value))
    && OffsetsRecorded(Entries(p, Chain(p).value), Cursor(p))
    && ZeroFrom(p, Cursor(p))
  }

  lemma ZeroRead(p: Page, from: int, a: int)
    requires ZeroFrom(p, from) && a >= from
    ensures Read(p, a) == 0
  {
  }

  /** A write below `from` keeps everything from `from` on zero. */
  lemma WriteBelowKeepsZero(p: Page, at: int, v: int, from: int)
    requires ZeroFrom(p, from) && at < from
    ensures ZeroFrom(Write(p, at, v), from)
  {
    var q := Write(p, at, v);
    forall a | a in q.words && a >= from
      ensures q.words[a] == 0
    {
      assert a in p.words && q.words[a] == p.words[a];
    }
  }

  /** Stores that all land below `from` keep everything from `from` on
      zero. */
  lemma {:induction false} ApplyBelowKeepsZero(p: Page, ws: seq<Store>, from: int)
    requires ZeroFrom(p, from)
    requires forall j :: 0 <= j < |ws| ==> ws[j].at < from
    ensures ZeroFrom(Apply(p, ws), from)
    decreases |ws|
  {
    if ws != [] {
      WriteBelowKeepsZero(p, ws[0].at, ws[0].value, from);
      ApplyBelowKeepsZero(Write(p, ws[0].at, ws[0].value), ws[1..], from);
    }
  }

  /** The slots of a freshly placed table: one entry, then four empty slots
      that the zeroed memory provides. */
  function NewTableSlots(s: Slot): (e: seq<Slot>)
    ensures |e| == TableSize
  {
    [s, EmptySlot, EmptySlot, EmptySlot, EmptySlot]
  }

  /** Rewriting both fields of slot k, and at most the header's cursor
      besides, changes slot k of the entries and no other. */
  lemma EntriesAfterSlotWrite(p: Page, q: Page, ns: seq<int>, k: int, s: Slot)
    requires Spaced(ns) && InPage(p, ns)
    requires 0 <= k < |ns| * TableSize
    requires SlotAt(q, ns[k / TableSize], k % TableSize) == s
    requires forall a ::
      (a != SlotIdAt(ns[k / TableSize], k % TableSize) &&
       a != SlotOffsetAt(ns[k / TableSize], k % TableSize) &&
       a != AllocationSizeAt) ==> Read(q, a) == Read(p, a)
    ensures Entries(q, ns) == Entries(p, ns)[k := s]
  {
    var e := Entries(p, ns);
    var e' := Entries(q, ns);
    forall j | 0 <= j < |e|
      ensures e'[j] == e[k := s][j]
    {
      EntryAt(p, ns, j);
      EntryAt(q, ns, j);
      EntryAt(p, ns, k);
      if j != k {
        SlotAddressesDistinct(ns, j / TableSize, j % TableSize, k / TableSize, k % TableSize);
        SlotAddressesDistinct(ns, k / TableSize, k % TableSize, j / TableSize, j % TableSize);
      }
    }
  }

  /** Linking a table `t` placed in zeroed memory after the last one, and
      writing its first slot, appends that table's slots to the entries. */
  lemma EntriesAfterLink(p: Page, q: Page, ns: seq<int>, t: int, s: Slot, cursor: int)
    requires Spaced(ns) && InPage(p, ns) && ns != []
    requires TablesBelow(ns, cursor) && cursor <= t && ZeroFrom(p, cursor)
    requires SlotAt(q, t, 0) == s
    requires forall a ::
      (a != ns[|ns| - 1] && a != SlotIdAt(t, 0) && a != SlotOffsetAt(t, 0) &&
       a != AllocationSizeAt) ==> Read(q, a) == Read(p, a)
    ensures Entries(q, ns + [t]) == Entries(p, ns) + NewTableSlots(s)
  {
    var ns' := ns + [t];
    var e := Entries(p, ns);
    var e' := Entries(q, ns');
    var added := NewTableSlots(s);
    forall j | 0 <= j < |e'|
      ensures e'[j] == (e + added)[j]
    {
      EntryAt(q, ns', j);
      if j < |e| {
        EntryAt(p, ns, j);
        assert ns'[j / TableSize] == ns[j / TableSize];
        SlotInsideTable(ns[j / TableSize], j % TableSize);
        SlotAddressesDistinct(ns, j / TableSize, j % TableSize, |ns| - 1, 0);
      } else {
        assert j / TableSize == |ns| && ns'[j / TableSize] == t;
        var i := j % TableSize;
        assert j == |e| + i;
        if i != 0 {
          ZeroRead(p, cursor, SlotIdAt(t, i));
          ZeroRead(p, cursor, SlotOffsetAt(t, i));
        }
      }
    }
  }

  // ---------------------------------------------------------------------
  // Address arithmetic
  // ---------------------------------------------------------------------

  /** The ten slot fields of a table lie strictly inside it. */
  lemma SlotInsideTable(n: int, i: int)
    requires 0 <= i < TableSize
    ensures n < SlotIdAt(n, i) < SlotOffsetAt(n, i) < n + TableStructSize
  {
  }

  /** On spaced tables, two slot fields share an address only when they are
      the same field of the same slot, and no slot field is a next link. */
  lemma SlotAddressesDistinct(ns: seq<int>, a: int, i: int, b: int, j: int)
    requires Spaced(ns)
    requires 0 <= a < |ns| && 0 <= b < |ns|
    requires 0 <= i < TableSize && 0 <= j < TableSize
    ensures SlotIdAt(ns[a], i) != SlotOffsetAt(ns[b], j)
    ensures SlotIdAt(ns[a], i) != ns[b] && SlotOffsetAt(ns[a], i) != ns[b]
    ensures (a != b || i != j) ==>
      SlotIdAt(ns[a], i) != SlotIdAt(ns[b], j) && SlotOffsetAt(ns[a], i) != SlotOffsetAt(ns[b], j)
  {
    if a < b {
      assert ns[a] + TableStructSize <= ns[b];
    } else if b < a {
      assert ns[b] + TableStructSize <= ns[a];
    }
  }
}

=== FILE: shared_memory.dfy ===
/**
 The process-local side of a channel's shared memory (IPCSharp/SharedMemory.cs):
 a growing list of equally sized blocks, each a memory-mapped file named after
 the channel and the block's index, and a bump cursor into the last block.

 A block is kept only as its name; mapping it and taking its address are I/O
 that this model leaves out. A `SharedMemoryBlock` handle is the pair
 (block index, offset) that `Allocate` returns. Every operation returns the
 state it leaves behind, and an exception is a `Failure`, after which the
 caller still holds the state it started from.
 */
module SharedMemory {
  import opened Wrappers
  import opened Int32s
  import opened Channels

  // ---------------------------------------------------------------------
  // Block names: GetId(_blocks.Count.ToString())
  // ---------------------------------------------------------------------

  function DigitChar(d: int): char
    requires 0 <= d < 10
  {
    ('0' as int + d) as char
  }

  predicate IsDigit(c: char) {
    '0' <= c <= '9'
  }

  /** `n.ToString()` for a count: decimal digits, no sign, no leading zero. */
  function Decimal(n: nat): (s: string)
    ensures |s| >= 1
    ensures forall i :: 0 <= i < |s| ==> IsDigit(s[i])
    decreases n
  {
    if n < 10 then [DigitChar(n)] else Decimal(n / 10) + [DigitChar(n % 10)]
  }

  /** Reads a string of decimal digits back as a number. */
  function ParseDecimal(s: string): int
    requires forall i :: 0 <= i < |s| ==> IsDigit(s[i])
    decreases |s|
  {
    if |s| == 0 then 0
    else 10 * ParseDecimal(s[..|s| - 1]) + (s[|s| - 1] as int - '0' as int)
  }

  /** Reading the digits of a count gives the count back. */
  lemma {:induction false} ParseDecimalOfDecimal(n: nat)
    ensures ParseDecimal(Decimal(n)) == n
    decreases n
  {
    var s := Decimal(n);
    if n >= 10 {
      ParseDecimalOfDecimal(n / 10);
      assert s[..|s| - 1] == Decimal(n / 10);
    }
  }

  /** Different counts are written differently. */
  lemma DecimalInjective(a: nat, b: nat)
    requires Decimal(a) == Decimal(b)
    ensures a == b
  {
    ParseDecimalOfDecimal(a);
    ParseDecimalOfDecimal(b);
  }

  /** The name of block `n` of a channel. */
  function BlockName(c: Channel, n: nat): string {
    GetSubId(c, Decimal(n))
  }

  /** Within a channel, different blocks get different names. */
  lemma BlockNamesDistinct(c: Channel, i: nat, j: nat)
    requires i != j
    ensures BlockName(c, i) != BlockName(c, j)
  {
    if BlockName(c, i) == BlockName(c, j) {
      SubIdInjective(c, Decimal(i), Decimal(j));
      DecimalInjective(i, j);
    }
  }

  // ---------------------------------------------------------------------
  // State
  // ---------------------------------------------------------------------

  /** One memory-mapped block, known by the name it was opened under. */
  datatype Block = Block(name: string)

  /** The fields of a `SharedMemory` object. */
  datatype Memory = Memory(
    channel: Channel,
    blockSize: Int32,
    blocks: seq<Block>,
    allocatePos: Int32,
    disposed: bool)

  /** A `SharedMemoryBlock`: the block index and the offset inside it. */
  datatype BlockRef = BlockRef(block: int, offset: int)

  /** The address `GetPointer` hands out: a block and an offset from its base. */
  datatype Pointer = Pointer(block: Block, offset: int)

  /** The exceptions the operations throw. A list index out of range throws
      `ArgumentOutOfRangeException` for the parameter "index". */
  datatype MemoryError = ArgumentOutOfRange(paramName: string) | ObjectDisposed

  /** `IsValid`. */
  predicate IsValid(m: Memory) {
    !m.disposed
  }

  /** The state every reachable object keeps: the cursor inside a block,
      and block i named after index i. */
  predicate Inv(m: Memory) {
    && 0 <= m.allocatePos <= m.blockSize
    && (forall i :: 0 <= i < |m.blocks| ==> m.blocks[i].name == BlockName(m.channel, i))
  }

  /** Blocks of a reachable state are pairwise distinct files. */
  lemma InvBlocksDistinct(m: Memory, i: int, j: int)
    requires Inv(m) && 0 <= i < |m.blocks| && 0 <= j < |m.blocks| && i != j
    ensures m.blocks[i] != m.blocks[j]
  {
    BlockNamesDistinct(m.channel, i, j);
  }

  // ---------------------------------------------------------------------
  // Construction
  // ---------------------------------------------------------------------

  /** `NewBlock`: opens the block named after the current count and appends
      it. */
  function NewBlock(m: Memory): (m': Memory)
    ensures |m'.blocks| == |m.blocks| + 1 && m'.blocks[..|m.blocks|] == m.blocks
    ensures m'.blocks[|m.blocks|].name == BlockName(m.channel, |m.blocks|)
    ensures m' == m.(blocks := m'.blocks)
  {
    m.(blocks := m.blocks + [Block(BlockName(m.channel, |m.blocks|))])
  }

  /** The block size the constructor uses when the caller gives none. */
  const DefaultBlockSize: Int32 := 4096

  /** The constructor: no blocks, cursor 0, then one `NewBlock`; the block
      size defaults to `DefaultBlockSize`. The constructor itself does not
      check the block size; mapping a block rejects a non-positive capacity,
      and mapping is not part of this model. */
  function New(channel: Channel, blockSize: Int32 := DefaultBlockSize): (m: Memory)
    ensures |m.blocks| == 1 && m.blocks[0].name == BlockName(channel, 0)
    ensures m.allocatePos == 0 && IsValid(m)
    ensures m.channel == channel && m.blockSize == blockSize
  {
    NewBlock(Memory(channel, blockSize, [], 0, false))
  }

  /** A new object is in the reachable-state invariant when its block size
      is not negative. */
  lemma NewEstablishesInv(channel: Channel, blockSize: Int32)
    requires 0 <= blockSize
    ensures Inv(New(channel, blockSize))
    ensures Inv(New(channel)) && New(channel).blockSize == 4096
  {
  }

  // ---------------------------------------------------------------------
  // Allocate
  // ---------------------------------------------------------------------

  /** `Allocate(size)` as the source writes it: a size above the block size
      throws; a size that does not fit behind the cursor opens a new block
      and restarts the cursor at 0. The sum `_allocatePos + size` is an
      unchecked int32 addition, and a negative size is not rejected. */
  function AllocateAsWritten(m: Memory, size: Int32): (r: Result<(Memory, BlockRef), MemoryError>)
    ensures r.Failure? <==> size > m.blockSize
    ensures r.Success? ==>
      var (m', ref) := r.value;
      && m'.channel == m.channel && m'.blockSize == m.blockSize && m'.disposed == m.disposed
      && |m.blocks| <= |m'.blocks| <= |m.blocks| + 1 && m'.blocks[..|m.blocks|] == m.blocks
      && ref.block == |m'.blocks| - 1
      && (m'.allocatePos - (ref.offset + size)) % 0x1_0000_0000 == 0
  {
    if size > m.blockSize then Failure(ArgumentOutOfRange("size"))
    else
      var m1 := if Wrap(m.allocatePos + size) > m.blockSize then NewBlock(m).(allocatePos := 0) else m;
      var offset := m1.allocatePos;
      Success((m1.(allocatePos := Wrap(offset + size)), BlockRef(|m1.blocks| - 1, offset)))
  }

  /** `Allocate(size)` with the two gaps of the source closed: a negative
      size is rejected like an oversized one, and the fit test compares
      without overflow. */
  function Allocate(m: Memory, size: Int32): (r: Result<(Memory, BlockRef), MemoryError>)
    ensures r.Failure? <==> size < 0 || size > m.blockSize
    ensures r.Success? ==>
      var (m', ref) := r.value;
      && m'.channel == m.channel && m'.blockSize == m.blockSize && m'.disposed == m.disposed
      && ref.block == |m'.blocks| - 1
      && (0 <= m.allocatePos ==> 0 <= ref.offset)
      && ref.offset + size == m'.allocatePos <= m.blockSize
  {
    if size < 0 || size > m.blockSize then Failure(ArgumentOutOfRange("size"))
    else
      var m1 := if size > m.blockSize - m.allocatePos then NewBlock(m).(allocatePos := 0) else m;
      var offset := m1.allocatePos;
      Success((m1.(allocatePos := offset + size), BlockRef(|m1.blocks| - 1, offset)))
  }

  /** Where the source and the corrected allocator agree: a non-negative
      size on any reachable state whose cursor plus size fits an int32. */
  lemma AllocateAgrees(m: Memory, size: Int32)
    requires Inv(m) && 0 <= size && m.allocatePos + size <= Int32Max
    ensures AllocateAsWritten(m, size) == Allocate(m, size)
  {
    WrapInRange(m.allocatePos + size);
    WrapInRange(size);
  }

  /** A negative size moves the source's cursor back, so the next block
      handed out overlaps the previous one: on block size 4096, 10 bytes go
      at offset 0, then size -5 at offset 10 leaves the cursor at 5, and
      the following allocation starts at offset 5, inside the first block. */
  lemma NegativeSizeOverlaps()
    ensures var m := New(Channel("ipcs_x"), 4096);
      var a := AllocateAsWritten(m, 10).value;
      var b := AllocateAsWritten(a.0, -5).value;
      var c := AllocateAsWritten(b.0, 1).value;
      && a.1 == BlockRef(0, 0) && c.1 == BlockRef(0, 5)
      && c.1.offset < a.1.offset + 10
  {
    var m := New(Channel("ipcs_x"), 4096);
    WrapInRange(10);
    var a := AllocateAsWritten(m, 10).value;
    assert a.0 == m.(allocatePos := 10);
    WrapInRange(5);
    var b := AllocateAsWritten(a.0, -5).value;
    assert b.0 == m.(allocatePos := 5);
    WrapInRange(6);
  }

  /** With a block size near `int.MaxValue` the fit test overflows: at
      cursor 0x40000000 a request of 0x40000000 bytes wraps the sum to a
      negative number, passes as fitting, and leaves the cursor negative. */
  lemma SumOverflowEscapesFitTest()
    ensures var m := Memory(Channel("ipcs_x"), Int32Max, [Block(BlockName(Channel("ipcs_x"), 0))], 0x4000_0000, false);
      var r := AllocateAsWritten(m, 0x4000_0000).value;
      && Inv(m)
      && r.1 == BlockRef(0, 0x4000_0000)
      && r.0.allocatePos < 0
  {
  }

  /** The two ways a successful allocation goes: inside the last block at
      the old cursor, or at offset 0 of one new block appended to the list. */
  lemma AllocateOutcome(m: Memory, size: Int32)
    requires Inv(m) && 0 <= size <= m.blockSize
    ensures var (m', ref) := Allocate(m, size).value;
      if m.allocatePos + size <= m.blockSize then
        && m'.blocks == m.blocks
        && ref == BlockRef(|m.blocks| - 1, m.allocatePos)
        && m'.allocatePos == m.allocatePos + size
      else
        && |m'.blocks| == |m.blocks| + 1 && m'.blocks[..|m.blocks|] == m.blocks
        && m'.blocks[|m.blocks|].name == BlockName(m.channel, |m.blocks|)
        && ref == BlockRef(|m.blocks|, 0)
        && m'.allocatePos == size
  {
  }

  /** Allocation keeps the reachable-state invariant and only ever appends
      blocks. */
  lemma AllocatePreservesInv(m: Memory, size: Int32)
    requires Inv(m) && 0 <= size <= m.blockSize
    ensures var m' := Allocate(m, size).value.0;
      Inv(m') && |m.blocks| <= |m'.blocks| && m'.blocks[..|m.blocks|] == m.blocks
  {
    var m' := Allocate(m, size).value.0;
    if size > m.blockSize - m.allocatePos {
      forall i | 0 <= i < |m'.blocks|
        ensures m'.blocks[i].name == BlockName(m'.channel, i)
      {
        if i < |m.blocks| {
          assert m'.blocks[i] == m'.blocks[..|m.blocks|][i];
        }
      }
    }
  }

  /** A block handed out by a state that holds at least one block lies in
      the block list of the new state and within the block size. */
  lemma AllocatedInBounds(m: Memory, size: Int32)
    requires Inv(m) && |m.blocks| >= 1 && 0 <= size <= m.blockSize
    ensures var (m', ref) := Allocate(m, size).value;
      0 <= ref.block < |m'.blocks| && 0 <= ref.offset && ref.offset + size <= m.blockSize
  {
  }

  /** Two successive allocations never overlap: the second lies in a later
      block, or in the same block at or after the end of the first. */
  lemma SuccessiveAllocationsDisjoint(m: Memory, size1: Int32, size2: Int32)
    requires Inv(m) && 0 <= size1 <= m.blockSize && 0 <= size2 <= m.blockSize
    ensures var (m1, ref1) := Allocate(m, size1).value;
      Inv(m1) &&
      var ref2 := Allocate(m1, size2).value.1;
      ref1.block < ref2.block || (ref1.block == ref2.block && ref1.offset + size1 <= ref2.offset)
  {
    AllocatePreservesInv(m, size1);
    var (m1, ref1) := Allocate(m, size1).value;
    AllocateOutcome(m, size1);
    AllocateOutcome(m1, size2);
  }

  // ---------------------------------------------------------------------
  // GetPointer
  // ---------------------------------------------------------------------

  /** `GetPointer(block, offset)`: the checks in the source's order. A block
      index equal to the count passes the `block > Count` test and fails at
      the list index instead; a negative offset is not rejected. */
  function GetPointer(m: Memory, block: int, offset: int): (r: Result<Pointer, MemoryError>)
    ensures r.Success? <==> IsValid(m) && 0 <= block < |m.blocks| && offset < m.blockSize
    ensures r.Success? ==> r.value == Pointer(m.blocks[block], offset)
  {
    if m.disposed then Failure(ObjectDisposed)
    else if block > |m.blocks| then Failure(ArgumentOutOfRange("block"))
    else if offset >= m.blockSize then Failure(ArgumentOutOfRange("offset"))
    else if block < 0 || block >= |m.blocks| then Failure(ArgumentOutOfRange("index"))
    else Success(Pointer(m.blocks[block], offset))
  }

  /** Which exception a rejected request gets: disposal first, then a block
      index above the count, then the offset; the index equal to the count
      and negative indices reach the list and fail there. */
  lemma GetPointerErrors(m: Memory, block: int, offset: int)
    ensures m.disposed ==> GetPointer(m, block, offset) == Failure(ObjectDisposed)
    ensures !m.disposed && block > |m.blocks| ==>
      GetPointer(m, block, offset) == Failure(ArgumentOutOfRange("block"))
    ensures !m.disposed && block <= |m.blocks| && offset >= m.blockSize ==>
      GetPointer(m, block, offset) == Failure(ArgumentOutOfRange("offset"))
    ensures !m.disposed && (block == |m.blocks| || block < 0) && offset < m.blockSize ==>
      GetPointer(m, block, offset) == Failure(ArgumentOutOfRange("index"))
  {
  }

  /** A non-empty block handed out by `Allocate` is accepted by
      `GetPointer`, and stays accepted, pointing into the same block, after
      any number of further allocations. */
  lemma AllocatedRefAccepted(m: Memory, size: Int32, later: seq<Int32>)
    requires Inv(m) && IsValid(m) && |m.blocks| >= 1 && 1 <= size <= m.blockSize
    requires forall i :: 0 <= i < |later| ==> 0 <= later[i] <= m.blockSize
    ensures var (m1, ref) := Allocate(m, size).value;
      && Inv(m1)
      && GetPointer(AllocateAll(m1, later), ref.block, ref.offset) ==
           Success(Pointer(m1.blocks[ref.block], ref.offset))
  {
    AllocatedInBounds(m, size);
    AllocatePreservesInv(m, size);
    var (m1, ref) := Allocate(m, size).value;
    AllocateAllKeepsBlocks(m1, later);
  }

  /** The state after a run of allocations, each with a size that is in
      range. */
  function AllocateAll(m: Memory, sizes: seq<Int32>): (m': Memory)
    requires Inv(m)
    requires forall i :: 0 <= i < |sizes| ==> 0 <= sizes[i] <= m.blockSize
    ensures Inv(m') && m'.blockSize == m.blockSize && m'.disposed == m.disposed
    decreases |sizes|
  {
    if |sizes| == 0 then m
    else
      AllocatePreservesInv(m, sizes[0]);
      AllocateAll(Allocate(m, sizes[0]).value.0, sizes[1..])
  }

  /** Allocations only append blocks. */
  lemma {:induction false} AllocateAllKeepsBlocks(m: Memory, sizes: seq<Int32>)
    requires Inv(m)
    requires forall i :: 0 <= i < |sizes| ==> 0 <= sizes[i] <= m.blockSize
    ensures |m.blocks| <= |AllocateAll(m, sizes).blocks|
    ensures AllocateAll(m, sizes).blocks[..|m.blocks|] == m.blocks
    decreases |sizes|
  {
    if |sizes| > 0 {
      AllocatePreservesInv(m, sizes[0]);
      var m1 := Allocate(m, sizes[0]).value.0;
      AllocateAllKeepsBlocks(m1, sizes[1..]);
      var b := AllocateAll(m, sizes).blocks;
      assert b[..|m1.blocks|] == m1.blocks;
      assert b[..|m.blocks|] == b[..|m1.blocks|][..|m.blocks|];
    }
  }

  // ---------------------------------------------------------------------
  // Dispose
  // ---------------------------------------------------------------------

  /** `Dispose()`: unless already disposed, closes every block and empties
      the list. The source never sets the disposed flag. */
  function Dispose(m: Memory): (m': Memory)
    ensures m'.blocks == [] || m'.disposed
    ensures m' == m.(blocks := m'.blocks)
  {
    if m.disposed then m else m.(blocks := [])
  }

  /** Disposing leaves the object valid, since the flag is never set, and
      disposing twice is the same as disposing once. */
  lemma DisposeKeepsValid(m: Memory)
    ensures IsValid(Dispose(m)) == IsValid(m)
    ensures Dispose(Dispose(m)) == Dispose(m)
  {
  }

  /** After `Dispose` no handle resolves: every `GetPointer` fails. */
  lemma GetPointerAfterDispose(m: Memory, block: int, offset: int)
    ensures GetPointer(Dispose(m), block, offset).Failure?
  {
  }

  /** After `Dispose`, an allocation that fits behind the cursor hands out
      block index -1, since the block list is empty. */
  lemma AllocateAfterDispose(m: Memory, size: Int32)
    requires Inv(m) && !m.disposed && 0 <= size && m.allocatePos + size <= m.blockSize
    ensures Inv(Dispose(m))
    ensures Allocate(Dispose(m), size).value.1 == BlockRef(-1, m.allocatePos)
  {
  }
}

=== FILE: utf16.dfy ===
/**
 UTF-16 little-endian encoding of a string, as produced by .NET's
 `Encoding.Unicode.GetBytes`: every code point becomes one or two 16-bit code
 units (a surrogate pair above U+FFFF), and every code unit becomes two bytes,
 low byte first.

 A Dafny `char` is a Unicode scalar value, so a string here is always well
 formed; .NET strings that hold an unpaired surrogate are not representable.
 */
module Utf16 {
  import opened Wrappers

  /** One UTF-16 code unit. */
  type CodeUnit = u: int | 0 <= u < 0x1_0000

  const SupplementaryBase := 0x1_0000
  const HighSurrogateMin := 0xD800
  const LowSurrogateMin := 0xDC00
  const SurrogateEnd := 0xE000
  const SurrogateRange := 0x400

  predicate IsHighSurrogate(u: CodeUnit) {
    HighSurrogateMin <= u < LowSurrogateMin
  }

  predicate IsLowSurrogate(u: CodeUnit) {
    LowSurrogateMin <= u < SurrogateEnd
  }

  /** The code units of one code point: itself when it fits in 16 bits,
      otherwise a high surrogate followed by a low surrogate. */
  function EncodeChar(c: char): (units: seq<CodeUnit>)
    ensures |units| == 1 <==> (c as int) < SupplementaryBase
    ensures |units| == 1 ==> !IsHighSurrogate(units[0]) && !IsLowSurrogate(units[0])
    ensures |units| != 1 ==> |units| == 2 && IsHighSurrogate(units[0]) && IsLowSurrogate(units[1])
  {
    var v := c as int;
    if v < SupplementaryBase then [v]
    else
      var w := v - SupplementaryBase;
      [HighSurrogateMin + w / SurrogateRange, LowSurrogateMin + w % SurrogateRange]
  }

  /** The code units of a whole string, in order. */
  function Encode(s: string): (units: seq<CodeUnit>)
    ensures |s| <= |units| <= 2 * |s|
  {
    if |s| == 0 then [] else EncodeChar(s[0]) + Encode(s[1..])
  }

  /** One byte, as .NET's unsigned `byte`. */
  type Byte = x: int | 0 <= x < 256

  /** Two bytes per code unit, low byte first. */
  function LittleEndianBytes(units: seq<CodeUnit>): (bytes: seq<Byte>)
    ensures |bytes| == 2 * |units|
  {
    seq(2 * |units|, i requires 0 <= i < 2 * |units| =>
      if i % 2 == 0 then units[i / 2] % 256 else units[i / 2] / 256)
  }

  /** Code unit `k` lands in bytes `2k` (its low half) and `2k + 1` (its high
      half). */
  lemma LittleEndianLayout(units: seq<CodeUnit>, k: nat)
    requires k < |units|
    ensures LittleEndianBytes(units)[2 * k] == units[k] % 256
    ensures LittleEndianBytes(units)[2 * k + 1] == units[k] / 256
  {
  }

  /** `Encoding.Unicode.GetBytes`: two bytes per code unit, and reading the
      byte pairs back and decoding them gives the string again. */
  function GetBytes(s: string): (bytes: seq<Byte>)
    ensures |bytes| == 2 * |Encode(s)|
    ensures FromLittleEndian(bytes) == Encode(s)
    ensures Decode(FromLittleEndian(bytes)) == Some(s)
  {
    BytesRoundTrip(Encode(s));
    DecodeEncode(s);
    LittleEndianBytes(Encode(s))
  }

  /** The same bytes as the 8-bit patterns the checksum works on. */
  function AsBits(bytes: seq<Byte>): (bits: seq<bv8>)
    ensures |bits| == |bytes|
  {
    seq(|bytes|, i requires 0 <= i < |bytes| => bytes[i] as bv8)
  }

  // ---------------------------------------------------------------------
  // Decoding, the inverse used to show that the encoding loses nothing
  // ---------------------------------------------------------------------

  /** Reassembles code units from little-endian byte pairs. */
  function FromLittleEndian(bytes: seq<Byte>): (units: seq<CodeUnit>)
    requires |bytes| % 2 == 0
    ensures |units| == |bytes| / 2
  {
    seq(|bytes| / 2, k requires 0 <= k < |bytes| / 2 => bytes[2 * k] as int + 256 * bytes[2 * k + 1] as int)
  }

  /** Decodes code units back to code points; an unpaired surrogate is
      malformed. */
  function Decode(units: seq<CodeUnit>): Option<string>
    decreases |units|
  {
    if |units| == 0 then Some([])
    else if IsLowSurrogate(units[0]) then None
    else if IsHighSurrogate(units[0]) then
      if |units| < 2 || !IsLowSurrogate(units[1]) then None
      else
        var v := SupplementaryBase + (units[0] - HighSurrogateMin) * SurrogateRange + (units[1] - LowSurrogateMin);
        match Decode(units[2..])
        case None => None
        case Some(rest) => Some([v as char] + rest)
    else
      match Decode(units[1..])
      case None => None
      case Some(rest) => Some([units[0] as char] + rest)
  }

  /** Decoding a code point's units, followed by anything, yields the code
      point first. */
  lemma DecodeChar(c: char, rest: seq<CodeUnit>)
    ensures Decode(EncodeChar(c) + rest) ==
            match Decode(rest)
            case None => None
            case Some(t) => Some([c] + t)
  {
    var units := EncodeChar(c) + rest;
    if (c as int) < SupplementaryBase {
      assert units[1..] == rest;
    } else {
      assert units[2..] == rest;
    }
  }

  /** Every string survives the round trip through its code units. */
  lemma {:induction false} DecodeEncode(s: string)
    ensures Decode(Encode(s)) == Some(s)
  {
    if |s| > 0 {
      DecodeEncode(s[1..]);
      DecodeChar(s[0], Encode(s[1..]));
      assert [s[0]] + s[1..] == s;
    }
  }

  /** Every code-unit sequence survives the round trip through its bytes. */
  lemma BytesRoundTrip(units: seq<CodeUnit>)
    ensures FromLittleEndian(LittleEndianBytes(units)) == units
  {
    var back := FromLittleEndian(LittleEndianBytes(units));
    forall k | 0 <= k < |units|
      ensures back[k] == units[k]
    {
      LittleEndianLayout(units, k);
    }
  }

  /** The byte encoding is injective: distinct strings give distinct bytes. */
  lemma GetBytesInjective(a: string, b: string)
    requires GetBytes(a) == GetBytes(b)
    ensures a == b
  {
  }
}

=== FILE: wrappers.dfy ===
/** Failure-carrying results shared by the modules of this model. */
module Wrappers {

  datatype Option<+T> = None | Some(value: T)

  /** The outcome of an operation that either returns a value or throws. */
  datatype Result<+T, +E> = Success(value: T) | Failure(error: E)
}
